=== FILE: README.md ===
# EOS plugin for Solar2D — a Dafny model of its core

The plugin connects Solar2D (Corona) apps written in Lua to the Epic Online
Services SDK. Most of it is glue between the EOS SDK, the Lua runtime and JNI.
Beneath the foreign calls there are small sequential pieces whose behaviour
can be stated exactly, and this project models those pieces and proves
properties about them:

| file | module | what it models |
|---|---|---|
| `eos_types.dfy` | `EosTypes`, `Lua` | SDK enums, opaque handles (a null pointer is `None`), Lua values |
| `command_line.dfy` | `CommandLine` | `PlatformCommandLine::GommandLineMap`: argv → key/value map, computed once |
| `plugin_config.dfy` | `PluginConfig` | `PluginConfigLuaSettings`: the seven credential fields, setters, `Reset`, `LoadFrom` |
| `dispatch_task.dfy` | `DispatchTask` | `DispatchEventTask.cpp`: `Execute` and the login-response event |
| `runtime_context.dfy` | `RuntimeContext` | the live-context registry, lookup by Lua state, the per-frame task queue |
| `lua_interface.dfy` | `LuaInterface` | `EosLuaInterface.cpp`: log formatting, login callback, API argument checks, `isLoggedOn`, `luaopen_plugin_eos` guards |
| `android_native.dfy` | `AndroidNative` | `native-lib.cpp`: the globals of the Android native layer as a state record, and the transitions its JNI entry points and SDK callbacks make |
| `android_loader.dfy` | `AndroidLoader` | `LuaLoader.java`: network-status decisions and the `loginInProgress` flag |

Every SDK, Lua or Android call whose result the code depends on becomes an
input. These are: the `EOS_Initialize`, `EOS_Platform_Create` and
`EOS_Platform_GetAuthInterface` results, the result of the Android helper
`InitializeSDK`, the
result the SDK gives for a UI or token request, `CoronaLuaGetCoronaThread`,
`CoronaLuaIsListener`, the dispatcher's success, the Wi-Fi and airplane-mode
readings, and the calling thread.

Outward calls become data. The native layer returns the requests it makes,
in order, as a list of `Effect`s, except those listed under "## Left out". A
Lua handler returns the values it leaves for Lua and whether it reported a
script error; `CoronaLuaError` reports an error and the handler carries on.

The model makes these choices:

- The registry is an unordered set in the code. The model keeps it as a
  sequence of entries with distinct addresses, and the sequence order stands
  for the set's unspecified iteration order.
- The constructor of `RuntimeContext` does not initialise the platform
  handle, the account id or the auth handle. Their initial values are
  therefore a parameter (`Uninitialised`) and are not assumed to be null.
- The source file defines `PlatformCommandLine::GommandLineMap`, but the
  header declares `CMDLine::Map`. The model follows the definition's
  algorithm.

## Model

| member | source | states |
|---|---|---|
| CommandLine.FindFirst | src/Source/PlatformCommandLine.cpp:19 | the first `=` is found: absent iff the character does not occur; otherwise an in-range index holding it, with none before it |
| CommandLine.ParseArg | src/Source/PlatformCommandLine.cpp:19-28 | an argument yields nothing iff it has no `=` or its key is empty after one leading dash is stripped (`=v`, `-=v`); otherwise the key is non-empty and free of `=`, and the argument is exactly optional dash + key + `=` + value, so later `=` signs stay in the value |
| CommandLine.ParseDashedArg | src/Source/PlatformCommandLine.cpp:23-25 | `-key=value` gives `key` with exactly one dash removed, so `--k=v` gives key `-k` |
| CommandLine.ParsePlainArg | src/Source/PlatformCommandLine.cpp:19-22 | `key=value` with no leading dash round-trips to its key and value |
| CommandLine.ParseArgsKeys | src/Source/PlatformCommandLine.cpp:18-30 | a key is in the map iff some argument contributes an entry for it |
| CommandLine.KeyAtSnoc | src/Source/PlatformCommandLine.cpp:18-30 | a key occurs in argv iff it occurs before the last argument or in the last one |
| CommandLine.ParseArgsLastWins | src/Source/PlatformCommandLine.cpp:26-28 | when a key repeats, the value of its last occurrence is kept |
| CommandLine.ParseArgsSnoc | src/Source/PlatformCommandLine.cpp:18-30 | appending an argument updates the map with that argument's entry alone |
| CommandLine.BuildMap | src/Source/PlatformCommandLine.cpp:18-30 | the loop over argv builds the same map as the left-to-right definition |
| CommandLine.CommandLineMap | src/Source/PlatformCommandLine.cpp:12-33 | the first call parses argv, so its keys are exactly the contributed ones, and clears the flag; a later call returns the cached map unchanged |
| CommandLine.CallsKeepCache | src/Source/PlatformCommandLine.cpp:13-17 | once initialised, any number of further calls leave the cache as it was |
| CommandLine.ComputedOnce | src/Source/PlatformCommandLine.cpp:12-33 | the map returned first is the parse of the first argv and never changes afterwards |
| PluginConfig.With | src/Source/PluginConfigLuaSettings.cpp:29-141 | storing into one field changes that field only |
| PluginConfig.Set | src/Source/PluginConfigLuaSettings.cpp:29-141 | as written: a string is stored in its field and null clears it, but null for the deployment id clears the app id and keeps the deployment id; nothing else changes |
| PluginConfig.SetIntended | src/Source/PluginConfigLuaSettings.cpp:97-107 | corrected setter: null clears the field it names, for all seven fields |
| PluginConfig.SetAgreesWithIntended | src/Source/PluginConfigLuaSettings.cpp:29-141 | the written setters equal the corrected ones except when clearing the deployment id |
| PluginConfig.DeploymentClearHitsAppId | src/Source/PluginConfigLuaSettings.cpp:97-107 | counterexample: clearing the deployment id of a record with both ids set wipes the app id and keeps the deployment id |
| PluginConfig.Reset | src/Source/PluginConfigLuaSettings.cpp:143-148 | app id, client id and client secret become empty; encryption key, product, sandbox and deployment ids are kept |
| PluginConfig.LoadFrom | src/Source/PluginConfigLuaSettings.cpp:150-332 | a null state returns false and changes nothing; otherwise it returns true iff `application.eos` is a table after `require("config")`; each field takes the table's value only when that value is a string, and then only up to its first NUL; the Lua state (the `application` global, whether `config` is loaded) is left as it was found |
| PluginConfig.LoadFieldsGet | src/Source/PluginConfigLuaSettings.cpp:211-299 | each of the seven fields is read from its own key, independently of the others |
| PluginConfig.StringFieldLoaded | src/Source/PluginConfigLuaSettings.cpp:211-299 | a field whose configured value is a string holds that string's C-string text after loading |
| PluginConfig.LoadStopsAtNul | src/Source/PluginConfigLuaSettings.cpp:211-299 | a configured string with an embedded NUL is stored only up to that NUL, so `"ab\0cd"` gives `"ab"` |
| PluginConfig.NonStringFieldKept | src/Source/PluginConfigLuaSettings.cpp:211-299 | a field whose configured value is not a string keeps its previous value |
| PluginConfig.LoadFromTwice | src/Source/PluginConfigLuaSettings.cpp:150-332 | loading again from the state the first load left gives the same result, because the state is restored |
| DispatchTask.NewLoginResponseTask | src/Source/DispatchEventTask.cpp:100-103 | a new login task has no dispatcher and holds `EOS_UnexpectedError`, which is not a success |
| DispatchTask.SetLuaEventDispatcher | src/Source/DispatchEventTask.cpp:32-35 | sets the dispatcher and keeps the result |
| DispatchTask.AcquireEventDataFrom | src/Source/DispatchEventTask.cpp:109-112 | copies the callback's result code and keeps the dispatcher |
| DispatchTask.PushLuaEventTableTo | src/Source/DispatchEventTask.cpp:114-133 | fails iff the state is null; otherwise the event is "loginResponse", `isError` holds iff the result is not a success, and `resultCode` is always 1 |
| DispatchTask.Execute | src/Source/DispatchEventTask.cpp:37-68 | the table is dispatched iff there is a dispatcher with a Lua state, and it is the pushed table; the result is true iff it was dispatched and the dispatcher succeeded; the stack ends as it began |
| DispatchTask.LoginTaskDeliversResult | src/Source/DispatchEventTask.cpp:37-133 | a task built from a callback and bound to a live dispatcher delivers "loginResponse", with `isError` exactly when the callback did not succeed |
| DispatchTask.NewCallResultTask | src/Source/DispatchEventTask.cpp:75-78 | the I/O-failure flag starts false |
| DispatchTask.SetHadIOFailure | src/Source/DispatchEventTask.cpp:84-92 | the flag then reads as the value last set |
| RuntimeContext.MainState | src/Source/RuntimeContext.cpp:38-44 | the dispatcher uses the Corona main state when there is one, otherwise the given state |
| RuntimeContext.Construct | src/Source/RuntimeContext.cpp:27-55 | a null state throws before anything is registered; otherwise the new context joins the registry, which stays duplicate-free and keeps all earlier entries; its dispatcher is on the main state, its queue is empty, and the never-initialised handles keep their given values |
| RuntimeContext.RemoveId | src/Source/RuntimeContext.cpp:57-78 | erasing an address keeps exactly the other entries |
| RuntimeContext.InstanceCount | src/Source/RuntimeContext.cpp:137-140 | the count equals the number of distinct live contexts |
| RuntimeContext.DistinctCount | src/Source/RuntimeContext.cpp:137-140 | with distinct addresses, the set has as many members as the registry has entries |
| RuntimeContext.Destroy | src/Source/RuntimeContext.cpp:57-78 | the destructor removes its context, keeps every other one, and the count drops by one |
| RuntimeContext.ConstructDestroy | src/Source/RuntimeContext.cpp:27-78 | constructing raises the count by one, and destroying that context restores the previous set |
| RuntimeContext.FirstWithState | src/Source/RuntimeContext.cpp:118-133 | the search returns a registered context with the requested main state, or nothing when no entry has it |
| RuntimeContext.GetInstanceBy | src/Source/RuntimeContext.cpp:109-135 | a null state finds nothing; otherwise the result is a registered context whose main state matches, or nothing iff none does |
| RuntimeContext.ConstructedIsFound | src/Source/RuntimeContext.cpp:27-135 | a constructed context is found by the state it was built with |
| RuntimeContext.NonNullContents | src/Source/RuntimeContext.cpp:156-164 | the tasks a frame executes are exactly the non-null queue entries |
| RuntimeContext.NonNullAppend | src/Source/RuntimeContext.cpp:156-164 | executing a queue in order executes its parts in order |
| RuntimeContext.OnCoronaEnterFrame | src/Source/RuntimeContext.cpp:142-200 | returns 0; a null state changes nothing; otherwise the platform is ticked iff there is a handle, every non-null task is executed in FIFO order, and the queue ends empty with nothing else changed |
| RuntimeContext.OnHandleGlobalEosEvent | src/Source/RuntimeContext.cpp:202-231 | a null event changes nothing; otherwise exactly one task joins the back, bound to the context's dispatcher and carrying the result code; the rest of the context is unchanged |
| RuntimeContext.EnqueuedRunsLast | src/Source/RuntimeContext.cpp:156-164 | an event enqueued now runs on the next frame after every task already waiting |
| LuaInterface.LogLine | src/Source/EosLuaInterface.cpp:152-169 | nothing is logged at level Off; the line starts with "ERROR:" iff the level is Error or Fatal, and with "WARNING:" iff it is Warning; other levels start with "[EOS SDK]"; every line ends with "[EOS SDK] " followed by the message, and holds nothing else but the severity tag |
| LuaInterface.OnLoginCallback | src/Source/EosLuaInterface.cpp:171-183 | the selected account is stored only on success; the response is forwarded iff the operation is complete; nothing else changes |
| Lua.CString | src/Source/EosLuaInterface.cpp:238-242 | a Lua string seen as a C string is its prefix before the first NUL: a prefix free of NUL that is either the whole string or followed by a NUL |
| Lua.CStringStopsAtNul | src/Source/EosLuaInterface.cpp:238-242 | a string `a + NUL + b` with no NUL in `a` reads as exactly `a` |
| LuaInterface.PositionFromName | src/Source/EosLuaInterface.cpp:232-267 | a name maps to a position iff it is exactly "topLeft", "topRight", "bottomLeft" or "bottomRight" |
| LuaInterface.PositionNameRoundTrip | src/Source/EosLuaInterface.cpp:244-267 | positions and names correspond one to one |
| LuaInterface.OnSetNotificationPosition | src/Source/EosLuaInterface.cpp:223-303 | a non-string or unknown name reports an error and returns false; the SDK is asked to use the named position iff the name is known and a context with a platform handle is bound; the call returns nothing, false or true, and true iff the SDK was asked and accepted; nothing is returned without a bound context |
| LuaInterface.ListenerCall | src/Source/EosLuaInterface.cpp:306-391 | a listener request is made iff the event name is a non-empty string, the second argument is a listener and a context is bound; it names that event and is an add request iff the call adds; bad arguments report an error |
| LuaInterface.OnAddEventListener | src/Source/EosLuaInterface.cpp:306-347 | a request is made iff the event name is a non-empty C string, the second argument is a listener and a context is bound; it asks the dispatcher to add a listener for exactly that name |
| LuaInterface.OnRemoveEventListener | src/Source/EosLuaInterface.cpp:350-391 | a request is made iff the event name is a non-empty C string, the second argument is a listener and a context is bound; it asks the dispatcher to remove the listener for exactly that name |
| LuaInterface.AddRemoveSameChecks | src/Source/EosLuaInterface.cpp:306-391 | adding and removing accept the same calls, report the same errors and name the same event |
| LuaInterface.OnAccessingField | src/Source/EosLuaInterface.cpp:394-446 | a value is returned iff the key is the string "isLoggedOn" and a context is bound, and it is true iff both an account id and a platform handle are set; any other string key reports an error and returns nothing; a non-string key returns nothing silently |
| LuaInterface.IsLoggedOnRead | src/Source/EosLuaInterface.cpp:415-436 | reading `eos.isLoggedOn` gives true exactly when an account has been selected and a platform exists, with no error |
| LuaInterface.OnAssigningField | src/Source/EosLuaInterface.cpp:449-453 | assignments are ignored: nothing is returned and no error is reported |
| LuaInterface.OnGetAuthIdToken | src/Source/EosLuaInterface.cpp:189-220 | the token is returned iff a context is bound and the SDK copied one |
| LuaInterface.ExchangeCodeToken | src/Source/EosLuaInterface.cpp:672-697 | the exchange-code login is attempted iff there is a platform, both AUTH_TYPE and AUTH_PASSWORD are present, the type is "exchangecode" and the password is non-empty; the password is the token |
| LuaInterface.LaunchArgsStep | src/Source/PlatformCommandLine.cpp:18-30 | a launcher argument `-key=value` appended to argv sets that key |
| LuaInterface.LauncherArgsStartLogin | src/Source/EosLuaInterface.cpp:672-697 | the arguments the Epic launcher passes lead, through the parser, to a login with the password |
| LuaInterface.ThreeLaunchArgs | src/Source/PlatformCommandLine.cpp:18-30 | three `-key=value` arguments parse to their three entries, later keys overriding earlier ones |
| LuaInterface.LuaOpen | src/Source/EosLuaInterface.cpp:482-702 | a null state returns at once; a load from another thread while instances are live is refused; otherwise one context is registered, the SDK is initialised iff this is the only live instance, a failed initialisation returns no table and attempts no login, a null platform after a successful initialisation reports an error, and the exchange-code guard decides the login, which stores the SDK's auth interface in the context |
| LuaInterface.SecondLoadSkipsInit | src/Source/EosLuaInterface.cpp:493-504 | a second load on the same thread does not initialise the SDK again; one from another thread is refused |
| AndroidNative.InitializeSdk | src/android/plugin/src/main/cpp/native-lib.cpp:184-212 | once initialised, a call returns true and changes nothing; otherwise the flag and the result are what the helper `InitializeSDK` reported |
| AndroidNative.InitializeOnce | src/android/plugin/src/main/cpp/native-lib.cpp:190-194 | after one successful initialisation, every later call succeeds without change |
| AndroidNative.AddNotifyLoginStatusChanged | src/android/plugin/src/main/cpp/native-lib.cpp:323-333 | a no-op while registered; otherwise the id the SDK hands out is stored; nothing else changes |
| AndroidNative.RemoveNotifyLoginStatusChanged | src/android/plugin/src/main/cpp/native-lib.cpp:352-362 | a registered id is unregistered with the SDK and reset to invalid; an invalid id causes no SDK call |
| AndroidNative.RemoveThenAdd | src/android/plugin/src/main/cpp/native-lib.cpp:323-362 | registering after a removal stores the new id |
| AndroidNative.CreatePlatform | src/android/plugin/src/main/cpp/native-lib.cpp:366-399 | an existing platform is kept; a failed creation returns false with nothing registered and no login; on success the notification is registered (unless already registered) and a persistent login starts |
| AndroidNative.CreatePlatformKeepsFirst | src/android/plugin/src/main/cpp/native-lib.cpp:372-374 | a second call keeps the first platform and succeeds, whatever the SDK would return |
| AndroidNative.OnLoginStatusChanged | src/android/plugin/src/main/cpp/native-lib.cpp:84-91 | LoggedIn reports true; NotLoggedIn deletes the stored credentials and reports false; a local profile reports nothing |
| AndroidNative.OnAuthLogin | src/android/plugin/src/main/cpp/native-lib.cpp:94-108 | incomplete results are ignored; success stores the local user; the reported login state is whether the login succeeded |
| AndroidNative.OnPersistentAuthLogin | src/android/plugin/src/main/cpp/native-lib.cpp:111-145 | incomplete results are ignored; success stores the local user; a completed call makes exactly one deletion request (iff it failed with a code other than Canceled, AlreadyPending, TooManyRequests, TimedOut, ServiceFailure or NotFound) followed by the report of whether it succeeded |
| AndroidNative.OnDeletePersistentAuth | src/android/plugin/src/main/cpp/native-lib.cpp:148-157 | a successful deletion clears the local user, and a failed one changes nothing |
| AndroidNative.OnLogout | src/android/plugin/src/main/cpp/native-lib.cpp:160-172 | a successful logout clears the local user and deletes stored credentials, and a failed one does nothing |
| AndroidNative.Logout | src/android/plugin/src/main/cpp/native-lib.cpp:403-412 | asks the SDK to log out the current local user |
| AndroidNative.LoginWithAccountPortal | src/android/plugin/src/main/cpp/native-lib.cpp:423-441 | reports a login in progress, then requests an account-portal login |
| AndroidNative.DisplayName | src/android/plugin/src/main/cpp/native-lib.cpp:54-75 | empty without a platform or when the SDK cannot copy the user info; otherwise the copied name |
| AndroidNative.ShutdownSdk | src/android/plugin/src/main/cpp/native-lib.cpp:338-349 | the SDK is asked to release the platform it had (even a null one) and then to shut down, in that order; the platform handle ends null; the initialised flag is kept |
| AndroidNative.InitializeAfterShutdown | src/android/plugin/src/main/cpp/native-lib.cpp:338-349 | because shutdown keeps the flag, a later initialisation reports success without initialising, although the SDK was asked to shut down |
| AndroidNative.NetworkChanged | src/android/plugin/src/main/cpp/native-lib.cpp:466-474 | one network-status request to the SDK and no state change: Online when connected, Disabled when not, never Offline |
| AndroidNative.NetworkDisabled | src/android/plugin/src/main/cpp/native-lib.cpp:466-480 | the single request is for Disabled, the same as a lost connection |
| AndroidNative.Unload | src/android/plugin/src/main/cpp/native-lib.cpp:500-503 | the notification is unregistered (if there was one), then the platform is released and the SDK shut down, and nothing else is requested; no platform and no notification remain |
| AndroidLoader.DataAvailableFor | src/android/plugin/src/main/java/plugin/eos/LuaLoader.java:138-168 | data is available iff the radio type is UMTS, HSDPA, HSPA, HSPAP, LTE or NR; EDGE, GPRS, CDMA and unknown types mean no data |
| AndroidLoader.CheckConnectivity | src/android/plugin/src/main/java/plugin/eos/LuaLoader.java:78-94 | the native layer makes one request to the SDK: Online iff Wi-Fi is available, or airplane mode is off and data is available; otherwise Disabled, never Offline; Wi-Fi wins over airplane mode |
| AndroidLoader.UpdateNetworkConnection | src/android/plugin/src/main/java/plugin/eos/LuaLoader.java:118-127 | Wi-Fi counts as available iff it is enabled and its supplicant has completed; connectivity is then re-checked |
| AndroidLoader.OnDataConnectionStateChanged | src/android/plugin/src/main/java/plugin/eos/LuaLoader.java:135-171 | the data flag follows the radio type, and connectivity is then re-checked |
| AndroidLoader.SlowRadioDisables | src/android/plugin/src/main/java/plugin/eos/LuaLoader.java:138-144 | on a 2G radio without Wi-Fi, the SDK is asked to treat the network as disabled |
| AndroidLoader.LoginStateChanged | src/android/plugin/src/main/java/plugin/eos/LuaLoader.java:587-589 | clears `loginInProgress` whatever the outcome, and changes nothing else |
| AndroidLoader.LoginInProgress | src/android/plugin/src/main/java/plugin/eos/LuaLoader.java:591-593 | sets `loginInProgress`, and changes nothing else |
| AndroidLoader.OnResumed | src/android/plugin/src/main/java/plugin/eos/LuaLoader.java:301-320 | a timeout is scheduled iff a login is in progress |
| AndroidLoader.ResumeTimeout | src/android/plugin/src/main/java/plugin/eos/LuaLoader.java:305-311 | a failed login is reported iff the login is still in progress when the timeout fires; either way none is in progress afterwards |
| AndroidLoader.FinishedLoginNotTimedOut | src/android/plugin/src/main/java/plugin/eos/LuaLoader.java:305-311 | a login that finished before the timeout is not reported as failed |
| AndroidLoader.ResumeTimeoutAfter | src/android/plugin/src/main/java/plugin/eos/LuaLoader.java:302-320 | a timeout scheduled on resume reports a failed login iff no native call before it fires reported the login finished |
| AndroidLoader.ApplyEffectsAppend | src/android/plugin/src/main/java/plugin/eos/LuaLoader.java:587-593 | applying two batches of native calls equals applying them joined |
| AndroidLoader.ApplyEffectsLastReport | src/android/plugin/src/main/java/plugin/eos/LuaLoader.java:587-593 | after any batch of native calls, the network flags are unchanged and `loginInProgress` is what the last login report said, or unchanged if there was none |
| AndroidLoader.CreatePlatformStartsLogin | src/android/plugin/src/main/cpp/native-lib.cpp:366-399 | a successful platform creation leaves a login in progress on the Java side |
| AndroidLoader.PersistentLoginEndsProgress | src/android/plugin/src/main/cpp/native-lib.cpp:111-145 | a completed persistent-login callback ends the login on the Java side, so a pending resume timeout reports nothing; an incomplete one changes nothing |
| AndroidLoader.Init | src/android/plugin/src/main/java/plugin/eos/LuaLoader.java:381-402 | `init` returns no values to Lua whether or not initialisation worked; the SDK is initialised iff it already was or the native initialisation succeeded |

## Left out

- Every `EOS_*` SDK call (initialise, platform create, tick, login, logout, token copy, UI preferences, shutdown): closed vendor code. Their results are inputs, and the requests appear as `Effect`s or outcome fields. The exceptions are listed below: `EOS_EResult_IsOperationComplete`, the user-info release in `ShutdownSDK`, the single calls of `Tick`, `Suspend` and `Resume`, the display-name lookup after a successful login, the user-info release on logout, the token release in `OnGetAuthIdToken`, and logging.
- AndroidNative.OnAuthLogin: on success the callback also calls `GetLoggedInDisplayName`, which asks the SDK for the user-info interface, releases any earlier `LocalUserInfo` copy and copies the user info again. These calls are not among the effects, because the name only feeds a log line and the copied record is SDK-owned memory.
- AndroidNative.OnPersistentAuthLogin: the same display-name lookup on success is not among the effects, for the same reason.
- AndroidNative.OnLogout: the `EOS_UserInfo_Release` of `LocalUserInfo` on a successful logout is not among the effects, because that buffer is SDK-owned memory and not part of the native state.
- LuaInterface.OnGetAuthIdToken: the `EOS_Auth_IdToken_Release` of the copied token and the warning logged when no token is copied are not modelled, because the token is SDK-owned memory and the warning is only a log line.
- Logging (`OS_LOG`, which calls the Java `ShowText` method over JNI, and `CoronaLog`): log lines are not effects. Only the SDK's own log callback is modelled, as `LuaInterface.LogLine`.
- EosTypes.IsOperationComplete: the SDK's `EOS_EResult_IsOperationComplete` is defined here rather than taken as an input. It is false exactly for `OperationWillRetry`, the SDK's documented meaning: a callback with that result will be called again. The login callbacks (`LuaInterface.OnLoginCallback`, `AndroidNative.OnAuthLogin`, `AndroidNative.OnPersistentAuthLogin`) rely on this definition.
- The `InitializeSDK` helper that `nativeInitializeSDK` calls in `native-lib.cpp` is defined outside the modelled files and is not part of this model: its result is the input `initOk`.
- Lua stack mechanics (`lua_*`, `luaL_*`, `CoronaLua*`, metatables, the `__gc` registry entry): Lua arguments and tables are modelled as values, and a handler's effect on Lua as the values it returns.
- `LuaLoader` listener registration and dispatch (`LuaEventDispatcher`'s listener table): only the event name a listener call would add or remove is modelled, and whether the dispatcher succeeded is an input.
- `RuntimeContext::OnLoginResponse` is declared but has no body in the visible source, so `onLoginCallback` is modelled up to the decision to forward.
- `OnFinalizing`: deleting the context it is given is `RuntimeContext.Destroy`.
- Platform options built from the loaded config inside `luaopen_plugin_eos` (encryption key, product, sandbox, deployment and client ids): these are only passed to the SDK, so `LuaOpen` does not carry them.
- The logging-callback registration and the `PushPluginTableTo` and `IsRunningInCoronaSimulator` helpers: they are Lua and SDK plumbing with no decision of their own.
- `RuntimeContext.InstanceCount`: the conversion of the set's size to a C++ `int` is not modelled, because a process cannot hold 2^31 contexts.
- JNI marshalling, global references and `GetLuaStatePointer` in `native-lib.cpp`. The in-app-purchase entry points (`nativeLoadProducts`, `nativePurchase`, `nativeRestorePurchases`, `nativeFinishTransaction`) and `nativeIsLoggedOn` are also left out, because they only forward to code in other files.
- `Tick`, `Suspend` and `Resume` in `native-lib.cpp`: single SDK calls with no decision.
- Android services in `LuaLoader.java` (ConnectivityManager, TelephonyManager, the airplane-mode setting, callback registration) and the 5-second `Handler.postDelayed` timing: the readings are inputs and the timeout is a separate transition.
- `AndroidLoader.OnResumed`: re-posting replaces `loginRunnable` but earlier posts stay queued. The model only says whether one more timeout is scheduled, not how many are pending.
- `PlatformCommandLine-win.cpp` (wide-to-UTF-8 argv conversion through Win32 calls): argv is a given sequence of strings.
- `EosCallResultHandler.h` and the pooled body of `AddEventHandlerFor`: both are commented out in the source. `BaseEosCallResultHandler.h` is an interface with no implementation, and `WebAuthContextProvider.h` is an iOS UI accessor. None of them is part of this model.
- Memory management (`new`/`delete`, `shared_ptr`) and thread identity: contexts are addresses and threads are comparable values.
- AndroidNative.ShutdownSdk: the `EOS_UserInfo_Release` of the buffer `GetLoggedInDisplayName` keeps in `LocalUserInfo` is not modelled, because that buffer is SDK-owned memory and not part of the native state; the platform release and `EOS_Shutdown` requests are.
- RuntimeContext.OnCoronaEnterFrame: the queue holds `shared_ptr<BaseDispatchEventTask>` with a virtual `Execute`, but the model's queue holds only login-response tasks, the one task type these files define and enqueue.
- Identifier mismatches in the source: the header declares `CMDLine::Map` while the source defines `PlatformCommandLine::GommandLineMap`. In addition, `RuntimeContext.cpp:89-107` defines members the header does not declare. The model follows the definitions.

## Findings

| source | as written | input that shows it | evidently intended | confidence | as-written member | corrected member |
|---|---|---|---|---|---|---|
| src/Source/PluginConfigLuaSettings.cpp:97-107 | `SetStringDeploymentId(nullptr)` clears the app id and leaves the deployment id unchanged | a record with app id "app" and deployment id "dep", then `SetStringDeploymentId(nullptr)`: the app id becomes "" and the deployment id stays "dep" | a null argument clears the deployment id, as every other setter clears its own field | high, not executed | PluginConfig.Set (counterexample `PluginConfig.DeploymentClearHitsAppId`) | PluginConfig.SetIntended |

=== FILE: android_loader.dfy ===
/**
 The Java side of the Android plugin (`LuaLoader.java`): how it turns radio
 and Wi-Fi events into the network status it hands to the SDK, and how it
 tracks whether a login is running so that a resume can time the login out.
 The Android services it asks (Wi-Fi manager, airplane-mode setting,
 telephony) answer through parameters.
 */
module AndroidLoader {
  import opened EosTypes
  import AndroidNative

  /** The `TelephonyManager.NETWORK_TYPE_*` codes the data listener names. */
  const NetworkTypeGprs: int := 1
  const NetworkTypeEdge: int := 2
  const NetworkTypeUmts: int := 3
  const NetworkTypeCdma: int := 4
  const NetworkTypeHsdpa: int := 8
  const NetworkTypeHspa: int := 10
  const NetworkTypeLte: int := 13
  const NetworkTypeHspap: int := 15
  const NetworkTypeNr: int := 20

  /** The generation the data listener logs for a radio type. */
  datatype Generation = Unknown | G2 | G3 | G4 | G5

  /** The radio-type switch: its cases, with everything else unknown. */
  function GenerationOf(networkType: int): Generation {
    if networkType == NetworkTypeEdge || networkType == NetworkTypeGprs || networkType == NetworkTypeCdma then G2
    else if networkType == NetworkTypeUmts || networkType == NetworkTypeHsdpa
         || networkType == NetworkTypeHspa || networkType == NetworkTypeHspap then G3
    else if networkType == NetworkTypeLte then G4
    else if networkType == NetworkTypeNr then G5
    else Unknown
  }

  /**
   Whether a radio type counts as usable data: 3G and newer do; 2G and every
   type the switch does not name do not.
   */
  function DataAvailableFor(networkType: int): (r: bool)
    ensures r <==> networkType in {NetworkTypeUmts, NetworkTypeHsdpa, NetworkTypeHspa, NetworkTypeHspap,
                                   NetworkTypeLte, NetworkTypeNr}
  {
    GenerationOf(networkType) in {G3, G4, G5}
  }

  /** The fields of the single loader instance the model follows. */
  datatype LoaderState = LoaderState(loginInProgress: bool, wifiAvailable: bool, dataAvailable: bool)

  /**
   `checkConnectivity`: Wi-Fi first, then airplane mode (`airplaneMode` is the
   setting's value), then data. Connected means `NetworkChanged(true)`;
   airplane mode means `NetworkDisabled`; otherwise `NetworkChanged` with the
   data flag. The result is the native call's step from the native state
   `native`: one network-status request to the SDK.
   */
  function CheckConnectivity(s: LoaderState, airplaneMode: bool, native: AndroidNative.NativeState): (r: AndroidNative.Step)
    ensures r.state == native
    ensures r.effects == [AndroidNative.SetNetworkStatus(Online)] <==>
      s.wifiAvailable || (!airplaneMode && s.dataAvailable)
    ensures r.effects == [AndroidNative.SetNetworkStatus(Disabled)] <==>
      !(s.wifiAvailable || (!airplaneMode && s.dataAvailable))
  {
    if s.wifiAvailable then AndroidNative.NetworkChanged(native, true)
    else if airplaneMode then AndroidNative.NetworkDisabled(native)
    else AndroidNative.NetworkChanged(native, s.dataAvailable)
  }

  /** The loader's state after a network event, and the native call it made. */
  datatype NetworkUpdate = NetworkUpdate(state: LoaderState, native: AndroidNative.Step)

  /**
   `updateNetworkConnection` (on a network appearing or going away): Wi-Fi is
   available when enabled and its supplicant has completed association;
   then connectivity is re-checked.
   */
  function UpdateNetworkConnection(s: LoaderState, wifiEnabled: bool, supplicantCompleted: bool,
                                   airplaneMode: bool, native: AndroidNative.NativeState): (r: NetworkUpdate)
    ensures r.state.wifiAvailable <==> wifiEnabled && supplicantCompleted
    ensures r.state.(wifiAvailable := s.wifiAvailable) == s
    ensures r.native == CheckConnectivity(r.state, airplaneMode, native)
  {
    var s' := s.(wifiAvailable := wifiEnabled && supplicantCompleted);
    NetworkUpdate(s', CheckConnectivity(s', airplaneMode, native))
  }

  /** `onDataConnectionStateChanged`: records whether the radio type carries data, then re-checks connectivity. */
  function OnDataConnectionStateChanged(s: LoaderState, networkType: int, airplaneMode: bool,
                                        native: AndroidNative.NativeState): (r: NetworkUpdate)
    ensures r.state.dataAvailable == DataAvailableFor(networkType)
    ensures r.state.(dataAvailable := s.dataAvailable) == s
    ensures r.native == CheckConnectivity(r.state, airplaneMode, native)
  {
    var s' := s.(dataAvailable := DataAvailableFor(networkType));
    NetworkUpdate(s', CheckConnectivity(s', airplaneMode, native))
  }

  /** On 2G, without Wi-Fi, the SDK is told the network is disabled whatever airplane mode says. */
  lemma SlowRadioDisables(s: LoaderState, networkType: int, airplaneMode: bool, native: AndroidNative.NativeState)
    requires !s.wifiAvailable
    requires GenerationOf(networkType) == G2
    ensures OnDataConnectionStateChanged(s, networkType, airplaneMode, native).native.effects
         == [AndroidNative.SetNetworkStatus(Disabled)]
  {
  }

  /** `LoginStateChanged`: whatever the outcome, the login is no longer in progress. */
  function LoginStateChanged(s: LoaderState, loggedIn: bool): (r: LoaderState)
    ensures !r.loginInProgress
    ensures r.(loginInProgress := s.loginInProgress) == s
  {
    s.(loginInProgress := false)
  }

  /** `LoginInProgress`. */
  function LoginInProgress(s: LoaderState): (r: LoaderState)
    ensures r.loginInProgress
    ensures r.(loginInProgress := s.loginInProgress) == s
  {
    s.(loginInProgress := true)
  }

  /** `onResumed`: a timeout is scheduled exactly when a login is in progress. */
  function OnResumed(s: LoaderState): (scheduled: bool)
    ensures scheduled <==> s.loginInProgress
  {
    s.loginInProgress
  }

  datatype TimeoutOutcome = TimeoutOutcome(state: LoaderState, reportedFailure: bool)

  /**
   The scheduled runnable: it reports a failed login only if the login is
   still in progress when it runs, and otherwise does nothing.
   */
  function ResumeTimeout(s: LoaderState): (r: TimeoutOutcome)
    ensures r.reportedFailure <==> s.loginInProgress
    ensures r.reportedFailure ==> r.state == LoginStateChanged(s, false)
    ensures !r.reportedFailure ==> r.state == s
    ensures !r.state.loginInProgress
  {
    if s.loginInProgress then TimeoutOutcome(LoginStateChanged(s, false), true)
    else TimeoutOutcome(s, false)
  }

  /** A login that finished before the timeout fires is left alone by it. */
  lemma FinishedLoginNotTimedOut(s: LoaderState, loggedIn: bool)
    ensures !ResumeTimeout(LoginStateChanged(s, loggedIn)).reportedFailure
  {
  }

  /** How the loader reacts to one call from the native layer; SDK requests do not touch it. */
  function ApplyEffect(s: LoaderState, e: AndroidNative.Effect): LoaderState {
    match e
    case ReportLoginState(loggedIn) => LoginStateChanged(s, loggedIn)
    case ReportLoginInProgress => LoginInProgress(s)
    case _ => s
  }

  /** The native calls applied in order. */
  function ApplyEffects(s: LoaderState, effects: seq<AndroidNative.Effect>): LoaderState
    decreases |effects|
  {
    if |effects| == 0 then s else ApplyEffects(ApplyEffect(s, effects[0]), effects[1..])
  }

  /**
   The last login report among the native calls, read from the back:
   `Some(true)` for "in progress", `Some(false)` for a finished login, `None`
   when there is no report at all.
   */
  function LastLoginReport(effects: seq<AndroidNative.Effect>): Option<bool>
    decreases |effects|
  {
    if |effects| == 0 then None
    else
      var e := effects[|effects| - 1];
      if e.ReportLoginInProgress? then Some(true)
      else if e.ReportLoginState? then Some(false)
      else LastLoginReport(effects[..|effects| - 1])
  }

  /** Applying two batches of calls is applying their concatenation. */
  lemma {:induction false} ApplyEffectsAppend(s: LoaderState, a: seq<AndroidNative.Effect>, b: seq<AndroidNative.Effect>)
    ensures ApplyEffects(s, a + b) == ApplyEffects(ApplyEffects(s, a), b)
    decreases |a|
  {
    if |a| > 0 {
      assert (a + b)[0] == a[0];
      assert (a + b)[1..] == a[1..] + b;
      ApplyEffectsAppend(ApplyEffect(s, a[0]), a[1..], b);
    } else {
      assert a + b == b;
    }
  }

  /**
   Only the network flags survive any batch of native calls, and the login
   flag ends up as the last login report said, or unchanged if there was none.
   */
  lemma {:induction false} ApplyEffectsLastReport(s: LoaderState, effects: seq<AndroidNative.Effect>)
    ensures ApplyEffects(s, effects).wifiAvailable == s.wifiAvailable
    ensures ApplyEffects(s, effects).dataAvailable == s.dataAvailable
    ensures ApplyEffects(s, effects).loginInProgress
         == (match LastLoginReport(effects) case None => s.loginInProgress case Some(b) => b)
    decreases |effects|
  {
    if |effects| > 0 {
      var init := effects[..|effects| - 1];
      var e := effects[|effects| - 1];
      assert effects == init + [e];
      ApplyEffectsLastReport(s, init);
      ApplyEffectsAppend(s, init, [e]);
      var mid := ApplyEffects(s, init);
      assert ApplyEffects(mid, [e]) == ApplyEffect(mid, e) by {
        assert [e][1..] == [];
      }
    }
  }

  /** A successful platform creation leaves a login in progress on the Java side. */
  lemma CreatePlatformStartsLogin(l: LoaderState, s: AndroidNative.NativeState, created: Option<PlatformHandle>,
                                  sdkId: Option<NotificationId>)
    requires AndroidNative.CreatePlatform(s, created, sdkId).ok
    ensures ApplyEffects(l, AndroidNative.CreatePlatform(s, created, sdkId).effects).loginInProgress
  {
  }

  /**
   A completed persistent-login callback, whatever its result, ends the login
   on the Java side, so a pending resume timeout then reports nothing; a
   callback that will be retried changes nothing.
   */
  lemma PersistentLoginEndsProgress(l: LoaderState, s: AndroidNative.NativeState, info: LoginCallbackInfo)
    ensures IsOperationComplete(info.resultCode) ==>
      var l' := ApplyEffects(l, AndroidNative.OnPersistentAuthLogin(s, info).effects);
      !l'.loginInProgress && !ResumeTimeout(l').reportedFailure
    ensures !IsOperationComplete(info.resultCode) ==>
      ApplyEffects(l, AndroidNative.OnPersistentAuthLogin(s, info).effects) == l
  {
  }

  /**
   A timeout scheduled on resume reports a failed login exactly when no
   native call in the meantime reported the login finished: either none
   reported anything, or the last report was another login starting.
   */
  lemma ResumeTimeoutAfter(s: LoaderState, effects: seq<AndroidNative.Effect>)
    requires OnResumed(s)
    ensures ResumeTimeout(ApplyEffects(s, effects)).reportedFailure <==> LastLoginReport(effects) != Some(false)
  {
    ApplyEffectsLastReport(s, effects);
  }

  /**
   `init`: hands the loader to the native layer and initialises the SDK; it
   returns nothing to Lua whether or not initialisation worked.
   */
  function Init(s: AndroidNative.NativeState, initOk: bool): (r: (AndroidNative.NativeState, int))
    ensures r.1 == 0
    ensures r.0 == AndroidNative.InitializeSdk(s, initOk).0
    ensures r.0.sdkInitialised <==> s.sdkInitialised || initOk
  {
    (AndroidNative.InitializeSdk(s, initOk).0, 0)
  }
}

=== FILE: android_native.dfy ===
/**
 The Android native layer (`native-lib.cpp`): a handful of globals driven by
 JNI entry points and SDK callbacks. The globals are one state record; each
 entry point or callback is a transition returning the new state and the
 calls it makes outward, into the SDK or up to the Java `LuaLoader`, in
 order. SDK results arrive as inputs.
 */
module AndroidNative {
  import opened EosTypes

  /**
   `IsSDKInitialized`, `PlatformHandle`, `NotifyLoginStatusChangedId` (an
   invalid id is `None`) and `LocalUserId`.
   */
  datatype NativeState = NativeState(
    sdkInitialised: bool,
    platform: Option<PlatformHandle>,
    loginStatusNotification: Option<NotificationId>,
    localUserId: Option<AccountId>)

  datatype CredentialType = PersistentAuth | AccountPortal

  /** A call the native layer makes outward. */
  datatype Effect =
    | ReportLoginState(loggedIn: bool)       // LuaLoader.LoginStateChanged
    | ReportLoginInProgress                  // LuaLoader.LoginInProgress
    | RequestLogin(credentials: CredentialType)
    | RequestDeletePersistentAuth
    | RequestLogout(user: Option<AccountId>)
    | RemoveLoginStatusNotification(id: NotificationId)
    | SetNetworkStatus(status: NetworkStatus)
    | ReleasePlatform(platform: Option<PlatformHandle>)
    | ShutdownEos

  datatype Step = Step(state: NativeState, effects: seq<Effect>)

  /**
   `nativeInitializeSDK`: once the SDK is initialised, later calls return true
   without initialising again; otherwise the flag becomes what the helper
   `InitializeSDK` reported (`initOk`) and is returned. That helper is not
   part of this model.
   */
  function InitializeSdk(s: NativeState, initOk: bool): (r: (NativeState, bool))
    ensures s.sdkInitialised ==> r == (s, true)
    ensures !s.sdkInitialised ==> r.1 == initOk && r.0 == s.(sdkInitialised := initOk)
    ensures r.0.sdkInitialised == r.1
  {
    if s.sdkInitialised then (s, true)
    else (s.(sdkInitialised := initOk), initOk)
  }

  /** After one successful initialisation, every further call succeeds and changes nothing. */
  lemma InitializeOnce(s: NativeState, first: bool, later: bool)
    requires InitializeSdk(s, first).1
    ensures var s1 := InitializeSdk(s, first).0; InitializeSdk(s1, later) == (s1, true)
  {
  }

  /**
   `AddNotifyLoginStatusChanged`: a no-op while registered; otherwise the id
   the SDK hands out (`sdkId`, `None` if it refused) is stored.
   */
  function AddNotifyLoginStatusChanged(s: NativeState, sdkId: Option<NotificationId>): (r: NativeState)
    ensures s.loginStatusNotification.Some? ==> r == s
    ensures s.loginStatusNotification.None? ==> r.loginStatusNotification == sdkId
    ensures r.(loginStatusNotification := s.loginStatusNotification) == s
  {
    if s.loginStatusNotification.Some? then s else s.(loginStatusNotification := sdkId)
  }

  /** `RemoveNotifyLoginStatusChanged`: unregisters a registered id and leaves the id invalid. */
  function RemoveNotifyLoginStatusChanged(s: NativeState): (r: Step)
    ensures r.state.loginStatusNotification.None?
    ensures r.state.(loginStatusNotification := s.loginStatusNotification) == s
    ensures s.loginStatusNotification.Some? ==> r.effects == [RemoveLoginStatusNotification(s.loginStatusNotification.value)]
    ensures s.loginStatusNotification.None? ==> r.effects == []
  {
    match s.loginStatusNotification
    case None => Step(s, [])
    case Some(id) => Step(s.(loginStatusNotification := None), [RemoveLoginStatusNotification(id)])
  }

  /** Registering after removal takes the new id: removal really resets the registration. */
  lemma RemoveThenAdd(s: NativeState, sdkId: Option<NotificationId>)
    ensures AddNotifyLoginStatusChanged(RemoveNotifyLoginStatusChanged(s).state, sdkId).loginStatusNotification == sdkId
  {
  }

  /** `AuthLogin` as called by the two login entry points: tell Java a login is running, then ask the SDK. */
  function LoginEffects(credentials: CredentialType): seq<Effect> {
    [ReportLoginInProgress, RequestLogin(credentials)]
  }

  datatype CreateOutcome = CreateOutcome(state: NativeState, effects: seq<Effect>, ok: bool)

  /**
   `CreatePlatform`: an existing platform is kept; otherwise the handle
   `EOS_Platform_Create` returned (`created`) is stored, and a null one makes
   the call fail with nothing registered and no login attempted. On success
   the login-status notification is registered and a persistent login starts.
   */
  function CreatePlatform(s: NativeState, created: Option<PlatformHandle>, sdkId: Option<NotificationId>): (r: CreateOutcome)
    ensures s.platform.Some? ==> r.ok && r.state.platform == s.platform
    ensures s.platform.None? ==> (r.ok <==> created.Some?) && r.state.platform == created
    ensures !r.ok ==> r.state == s && r.effects == []
    ensures r.ok ==> r.state.platform.Some?
    ensures r.ok ==> r.state.loginStatusNotification == (if s.loginStatusNotification.Some? then s.loginStatusNotification else sdkId)
    ensures r.ok ==> r.effects == LoginEffects(PersistentAuth)
    ensures r.state.sdkInitialised == s.sdkInitialised && r.state.localUserId == s.localUserId
  {
    var withPlatform := if s.platform.Some? then s else s.(platform := created);
    if withPlatform.platform.None? then CreateOutcome(s, [], false)
    else CreateOutcome(AddNotifyLoginStatusChanged(withPlatform, sdkId), LoginEffects(PersistentAuth), true)
  }

  /** A second `CreatePlatform` keeps the first platform, whatever the SDK would return. */
  lemma CreatePlatformKeepsFirst(s: NativeState, first: PlatformHandle, second: Option<PlatformHandle>,
                                 id1: Option<NotificationId>, id2: Option<NotificationId>)
    requires s.platform.None?
    ensures var s1 := CreatePlatform(s, Some(first), id1).state;
      CreatePlatform(s1, second, id2).ok && CreatePlatform(s1, second, id2).state.platform == Some(first)
  {
  }

  /**
   `AuthNotifyLoginStatusChangedCb`: LoggedIn is reported as logged in;
   NotLoggedIn deletes stored credentials and is reported as logged out; any
   other status reports nothing.
   */
  function OnLoginStatusChanged(s: NativeState, status: LoginStatus): (r: Step)
    ensures r.state == s
    ensures status == LoggedIn ==> r.effects == [ReportLoginState(true)]
    ensures status == NotLoggedIn ==> r.effects == [RequestDeletePersistentAuth, ReportLoginState(false)]
    ensures status == UsingLocalProfile ==> r.effects == []
  {
    match status
    case LoggedIn => Step(s, [ReportLoginState(true)])
    case NotLoggedIn => Step(s, [RequestDeletePersistentAuth, ReportLoginState(false)])
    case UsingLocalProfile => Step(s, [])
  }

  /**
   The failures after which a persistent login keeps the stored credentials:
   transient ones, and "not found" (there were none to begin with).
   */
  predicate KeepsStoredCredentials(code: EResult) {
    code in {Canceled, AlreadyPending, TooManyRequests, TimedOut, ServiceFailure, NotFound}
  }

  /**
   `AuthLoginCb` (account-portal login): incomplete results are ignored; a
   success records the user; the login state reported is whether it succeeded.
   */
  function OnAuthLogin(s: NativeState, info: LoginCallbackInfo): (r: Step)
    ensures !IsOperationComplete(info.resultCode) ==> r == Step(s, [])
    ensures IsOperationComplete(info.resultCode) ==> r.effects == [ReportLoginState(info.resultCode == Success)]
    ensures info.resultCode == Success ==> r.state.localUserId == info.localUserId
    ensures info.resultCode != Success ==> r.state == s
    ensures r.state.(localUserId := s.localUserId) == s
  {
    if !IsOperationComplete(info.resultCode) then Step(s, [])
    else if info.resultCode == Success then
      Step(s.(localUserId := info.localUserId), [ReportLoginState(true)])
    else Step(s, [ReportLoginState(false)])
  }

  /**
   `PersistentAuthLoginCb`: like `OnAuthLogin`, but a failure that does not
   keep stored credentials first asks the SDK to delete them.
   */
  function OnPersistentAuthLogin(s: NativeState, info: LoginCallbackInfo): (r: Step)
    ensures !IsOperationComplete(info.resultCode) ==> r == Step(s, [])
    ensures IsOperationComplete(info.resultCode) ==>
      r.effects == (if info.resultCode != Success && !KeepsStoredCredentials(info.resultCode)
                    then [RequestDeletePersistentAuth] else [])
                   + [ReportLoginState(info.resultCode == Success)]
    ensures RequestDeletePersistentAuth in r.effects <==>
      IsOperationComplete(info.resultCode) && info.resultCode != Success && !KeepsStoredCredentials(info.resultCode)
    ensures info.resultCode == Success ==> r.state.localUserId == info.localUserId
    ensures info.resultCode != Success ==> r.state == s
    ensures r.state.(localUserId := s.localUserId) == s
  {
    if !IsOperationComplete(info.resultCode) then Step(s, [])
    else if info.resultCode == Success then
      Step(s.(localUserId := info.localUserId), [ReportLoginState(true)])
    else if KeepsStoredCredentials(info.resultCode) then Step(s, [ReportLoginState(false)])
    else Step(s, [RequestDeletePersistentAuth, ReportLoginState(false)])
  }

  /** `AuthDeletePersistentAuthCb`: a successful deletion forgets the local user. */
  function OnDeletePersistentAuth(s: NativeState, result: EResult): (r: NativeState)
    ensures result == Success ==> r.localUserId.None?
    ensures result != Success ==> r == s
    ensures r.(localUserId := s.localUserId) == s
  {
    if result == Success then s.(localUserId := None) else s
  }

  /** `AuthLogoutCb`: a successful logout forgets the local user and deletes stored credentials. */
  function OnLogout(s: NativeState, result: EResult): (r: Step)
    ensures result == Success ==> r.state.localUserId.None? && r.effects == [RequestDeletePersistentAuth]
    ensures result != Success ==> r == Step(s, [])
    ensures r.state.(localUserId := s.localUserId) == s
  {
    if result == Success then Step(s.(localUserId := None), [RequestDeletePersistentAuth]) else Step(s, [])
  }

  /** `Logout`: asks the SDK to log the current local user out. */
  function Logout(s: NativeState): (r: Step)
    ensures r.state == s && r.effects == [RequestLogout(s.localUserId)]
  {
    Step(s, [RequestLogout(s.localUserId)])
  }

  /** `LoginWithAccountPortal`: marks a login in progress and asks for an account-portal login. */
  function LoginWithAccountPortal(s: NativeState): (r: Step)
    ensures r.state == s
    ensures r.effects == [ReportLoginInProgress, RequestLogin(AccountPortal)]
  {
    Step(s, LoginEffects(AccountPortal))
  }

  /**
   `GetLoggedInDisplayName`: empty without a platform; otherwise the name the
   SDK copied (`copied`), or empty if it could not.
   */
  function DisplayName(s: NativeState, copied: Option<string>): (r: string)
    ensures s.platform.None? ==> r == ""
    ensures s.platform.Some? && copied.Some? ==> r == copied.value
    ensures copied.None? ==> r == ""
  {
    if s.platform.None? then "" else if copied.Some? then copied.value else ""
  }

  /**
   `ShutdownSDK`: asks the SDK to release the platform (even a null one) and
   then to shut down, and leaves the handle null. The initialised flag is not
   cleared.
   */
  function ShutdownSdk(s: NativeState): (r: Step)
    ensures r.state.platform.None?
    ensures r.state.(platform := s.platform) == s
    ensures r.effects == [ReleasePlatform(s.platform), ShutdownEos]
  {
    Step(s.(platform := None), [ReleasePlatform(s.platform), ShutdownEos])
  }

  /**
   Because shutdown keeps the flag, a later `nativeInitializeSDK` reports
   success without initialising, although the SDK was asked to shut down.
   */
  lemma InitializeAfterShutdown(s: NativeState, initOk: bool)
    requires s.sdkInitialised
    ensures ShutdownEos in ShutdownSdk(s).effects
    ensures InitializeSdk(ShutdownSdk(s).state, initOk) == (ShutdownSdk(s).state, true)
  {
  }

  /** `UpdateNetwork`: asks the SDK to set the platform's network status. */
  function UpdateNetwork(s: NativeState, status: NetworkStatus): Step {
    Step(s, [SetNetworkStatus(status)])
  }

  /**
   `NetworkChanged`: one request to the SDK, Online when connected and
   Disabled when not; Offline is never requested.
   */
  function NetworkChanged(s: NativeState, connected: bool): (r: Step)
    ensures r.state == s && |r.effects| == 1 && r.effects[0].SetNetworkStatus?
    ensures r.effects[0].status == Online <==> connected
    ensures r.effects[0].status != Offline
  {
    UpdateNetwork(s, if connected then Online else Disabled)
  }

  /** `NetworkDisabled`: the same request as a lost connection. */
  function NetworkDisabled(s: NativeState): (r: Step)
    ensures r == NetworkChanged(s, false)
    ensures r.effects == [SetNetworkStatus(Disabled)]
  {
    UpdateNetwork(s, Disabled)
  }

  /**
   `JNI_OnUnload`: unregisters the login-status notification, then releases
   the platform it had and shuts the SDK down.
   */
  function Unload(s: NativeState): (r: Step)
    ensures r.state.platform.None? && r.state.loginStatusNotification.None?
    ensures r.state.sdkInitialised == s.sdkInitialised && r.state.localUserId == s.localUserId
    ensures r.effects == RemoveNotifyLoginStatusChanged(s).effects + [ReleasePlatform(s.platform), ShutdownEos]
  {
    var removed := RemoveNotifyLoginStatusChanged(s);
    var shutdown := ShutdownSdk(removed.state);
    Step(shutdown.state, removed.effects + shutdown.effects)
  }
}

=== FILE: command_line.dfy ===
/**
 Launch-argument parsing (`PlatformCommandLine::GommandLineMap`). Every
 argument of the form `[-]key=value` becomes one map entry; the map is built
 once and then served from a cache. Obtaining argv from the operating system
 is not modelled: argv is given as a sequence of strings.
 */
module CommandLine {
  import opened EosTypes

  /** Index of the first `c` in `s`, as `std::string::find_first_of` with a one-character set. */
  function FindFirst(s: string, c: char): (r: Option<nat>)
    ensures r.None? <==> c !in s
    ensures r.Some? ==> r.value < |s| && s[r.value] == c && c !in s[..r.value]
  {
    if |s| == 0 then None
    else if s[0] == c then Some(0)
    else
      match FindFirst(s[1..], c)
      case None => None
      case Some(p) =>
        assert s[..p + 1] == [s[0]] + s[1..][..p];
        Some(p + 1)
  }

  /** The dash `ParseArg` strips from the front of an argument, if there is one. */
  function DashPrefix(arg: string): string {
    if |arg| > 0 && arg[0] == '-' then "-" else ""
  }

  /** An argument whose key is empty once one leading dash is stripped: `=v` or `-=v`. */
  predicate EmptyKeyArg(arg: string) {
    |arg| > 0 && (arg[0] == '=' || (arg[0] == '-' && |arg| > 1 && arg[1] == '='))
  }

  /**
   The entry one argument contributes: split at the first `=`, strip one
   leading `-` from the key, and drop the argument if the key ends up empty.
   */
  function ParseArg(arg: string): (r: Option<(string, string)>)
    ensures r.None? <==> '=' !in arg || EmptyKeyArg(arg)
    ensures r.Some? ==> r.value.0 != [] && '=' !in r.value.0
    ensures r.Some? ==> arg == DashPrefix(arg) + r.value.0 + "=" + r.value.1
  {
    match FindFirst(arg, '=')
    case None => None
    case Some(p) =>
      var key := if p > 0 && arg[0] == '-' then arg[1..p] else arg[..p];
      if |key| > 0 then
        assert arg == DashPrefix(arg) + key + "=" + arg[p + 1..];
        Some((key, arg[p + 1..]))
      else None
  }

  /** Argument `i` of `argv` contributes an entry for `key`. */
  predicate KeyAt(argv: seq<string>, i: int, key: string) {
    0 <= i < |argv| && ParseArg(argv[i]).Some? && ParseArg(argv[i]).value.0 == key
  }

  /** The map the arguments produce, processed left to right, later entries overwriting earlier ones. */
  function ParseArgs(argv: seq<string>): map<string, string> {
    if |argv| == 0 then map[]
    else
      var m := ParseArgs(argv[..|argv| - 1]);
      match ParseArg(argv[|argv| - 1])
      case None => m
      case Some((k, v)) => m[k := v]
  }

  /** The loop of `GommandLineMap`: one pass over argv filling the map. */
  method BuildMap(argv: seq<string>) returns (m: map<string, string>)
    ensures m == ParseArgs(argv)
  {
    m := map[];
    var i := 0;
    while i < |argv|
      invariant 0 <= i <= |argv|
      invariant m == ParseArgs(argv[..i])
    {
      assert argv[..i + 1][..i] == argv[..i];
      var entry := ParseArg(argv[i]);
      if entry.Some? {
        m := m[entry.value.0 := entry.value.1];
      }
      i := i + 1;
    }
    assert argv[..i] == argv;
  }

  /** A key is in the map exactly when some argument contributes an entry for it. */
  lemma {:induction false} ParseArgsKeys(argv: seq<string>, key: string)
    ensures key in ParseArgs(argv) <==> exists i :: KeyAt(argv, i, key)
  {
    if |argv| > 0 {
      var n := |argv| - 1;
      var init := argv[..n];
      ParseArgsKeys(init, key);
      assert key in ParseArgs(argv) <==> key in ParseArgs(init) || KeyAt(argv, n, key);
      KeyAtSnoc(argv, init, key);
    }
  }

  /** A key occurs in argv exactly when it occurs before the last argument or in it. */
  lemma KeyAtSnoc(argv: seq<string>, init: seq<string>, key: string)
    requires |argv| > 0 && init == argv[..|argv| - 1]
    ensures (exists i :: KeyAt(argv, i, key)) <==> (exists i :: KeyAt(init, i, key)) || KeyAt(argv, |argv| - 1, key)
  {
    forall i | 0 <= i < |init|
      ensures KeyAt(argv, i, key) <==> KeyAt(init, i, key)
    {
      assert argv[i] == init[i];
    }
  }

  /** When a key repeats, the value of its last occurrence is the one kept. */
  lemma {:induction false} ParseArgsLastWins(argv: seq<string>, i: int, key: string)
    requires KeyAt(argv, i, key)
    requires forall j :: i < j < |argv| ==> !KeyAt(argv, j, key)
    ensures key in ParseArgs(argv) && ParseArgs(argv)[key] == ParseArg(argv[i]).value.1
  {
    if i < |argv| - 1 {
      var init := argv[..|argv| - 1];
      assert KeyAt(init, i, key);
      forall j | i < j < |init|
        ensures !KeyAt(init, j, key)
      {
        assert !KeyAt(argv, j, key);
      }
      ParseArgsLastWins(init, i, key);
      assert !KeyAt(argv, |argv| - 1, key);
    }
  }

  /** Appending one argument updates the map with that argument's entry alone. */
  lemma ParseArgsSnoc(argv: seq<string>, arg: string)
    ensures ParseArgs(argv + [arg]) ==
      (if ParseArg(arg).Some? then ParseArgs(argv)[ParseArg(arg).value.0 := ParseArg(arg).value.1]
       else ParseArgs(argv))
  {
  }

  /** `key=value` with a key not starting with a dash parses back to its key and value. */
  lemma ParsePlainArg(key: string, value: string)
    requires key != [] && '=' !in key && key[0] != '-'
    ensures ParseArg(key + "=" + value) == Some((key, value))
  {
    var arg := key + "=" + value;
    var r := ParseArg(arg);
    assert arg[|key|] == '=';
    assert r.Some?;
    assert DashPrefix(arg) == "";
    assert arg[..|r.value.0|] == r.value.0;
    assert |r.value.0| == |key|;
    assert r.value.0 == arg[..|key|] == key;
    assert r.value.1 == arg[|key| + 1..] == value;
  }

  /** `-key=value` parses to `key` with exactly one dash removed, whatever `key` starts with. */
  lemma ParseDashedArg(key: string, value: string)
    requires key != [] && '=' !in key
    ensures ParseArg("-" + key + "=" + value) == Some((key, value))
  {
    var arg := "-" + key + "=" + value;
    var r := ParseArg(arg);
    assert arg[|key| + 1] == '=';
    assert !EmptyKeyArg(arg) by {
      assert arg[1] == key[0];
    }
    assert r.Some?;
    assert DashPrefix(arg) == "-";
    assert arg[1..1 + |r.value.0|] == r.value.0;
    assert |r.value.0| == |key|;
    assert r.value.0 == arg[1..1 + |key|] == key;
    assert r.value.1 == arg[|key| + 2..] == value;
  }

  /** The once-only cache: `toInit` is the function-local static flag, `parsed` the static map. */
  datatype Cache = Cache(toInit: bool, parsed: map<string, string>)

  const InitialCache := Cache(true, map[])

  /**
   `GommandLineMap`: the first call parses argv and clears the flag; every
   later call returns the stored map without looking at argv again.
   */
  function CommandLineMap(c: Cache, argv: seq<string>): (r: (Cache, map<string, string>))
    ensures !r.0.toInit && r.1 == r.0.parsed
    ensures c.toInit ==> forall k :: k in r.1 <==> exists i :: KeyAt(argv, i, k)
    ensures !c.toInit ==> r.0 == c
  {
    if c.toInit then
      var m := ParseArgs(argv);
      forall k ensures k in m <==> exists i :: KeyAt(argv, i, k) {
        ParseArgsKeys(argv, k);
      }
      (Cache(false, m), m)
    else (c, c.parsed)
  }

  /** After the first call, the map never changes, whatever argv later calls see. */
  lemma ComputedOnce(argv: seq<string>, later: seq<seq<string>>)
    ensures CallsFrom(CommandLineMap(InitialCache, argv).0, later) == CommandLineMap(InitialCache, argv).0
    ensures CommandLineMap(InitialCache, argv).1 == ParseArgs(argv)
  {
  }

  /** The cache after a series of calls with the given argv values. */
  function CallsFrom(c: Cache, argvs: seq<seq<string>>): Cache
    decreases |argvs|
  {
    if |argvs| == 0 then c else CallsFrom(CommandLineMap(c, argvs[0]).0, argvs[1..])
  }

  lemma {:induction false} CallsKeepCache(c: Cache, argvs: seq<seq<string>>)
    requires !c.toInit
    ensures CallsFrom(c, argvs) == c
    decreases |argvs|
  {
    if |argvs| > 0 {
      CallsKeepCache(CommandLineMap(c, argvs[0]).0, argvs[1..]);
    }
  }
}

=== FILE: dispatch_task.dfy ===
/**
 Dispatch tasks (`DispatchEventTask.cpp`): value objects that copy an SDK
 callback's data and later push it to Lua as an event table. The Lua stack
 is modelled as the sequence of event tables on it; what the dispatcher's
 listeners do with an event is not part of the model, only whether the
 dispatcher reports success.
 */
module DispatchTask {
  import opened EosTypes

  /** A `LuaEventDispatcher`; the task only asks it for its Lua state. */
  datatype Dispatcher = Dispatcher(luaState: Option<LuaStateId>)

  /** A Lua event table as the plugin fills it: the event name and its two fields. */
  datatype EventTable = EventTable(name: string, isError: bool, resultCode: int)

  const LoginResponseEventName: string := "loginResponse"

  /** `DispatchLoginResponseEventTask`: its dispatcher (an empty shared pointer is `None`) and the copied result. */
  datatype LoginResponseTask = LoginResponseTask(dispatcher: Option<Dispatcher>, result: EResult)

  /** The constructor: no dispatcher yet, and the result defaults to `EOS_UnexpectedError`. */
  function NewLoginResponseTask(): (t: LoginResponseTask)
    ensures t.dispatcher.None?
    ensures t.result == UnexpectedError && t.result != Success
  {
    LoginResponseTask(None, UnexpectedError)
  }

  function SetLuaEventDispatcher(t: LoginResponseTask, d: Option<Dispatcher>): (r: LoginResponseTask)
    ensures r.dispatcher == d && r.result == t.result
  {
    t.(dispatcher := d)
  }

  /** `AcquireEventDataFrom`: keeps the callback's result code, nothing else. */
  function AcquireEventDataFrom(t: LoginResponseTask, info: LoginCallbackInfo): (r: LoginResponseTask)
    ensures r.result == info.resultCode && r.dispatcher == t.dispatcher
  {
    t.(result := info.resultCode)
  }

  /**
   `PushLuaEventTableTo`: fails only on a null state; otherwise the event is
   "loginResponse", `isError` is whether the result was not a success, and
   `resultCode` is the constant 1 whatever the result.
   */
  function PushLuaEventTableTo(t: LoginResponseTask, L: Option<LuaStateId>): (r: Option<EventTable>)
    ensures r.None? <==> L.None?
    ensures r.Some? ==> r.value.name == LoginResponseEventName
    ensures r.Some? ==> (r.value.isError <==> t.result != Success)
    ensures r.Some? ==> r.value.resultCode == 1
  {
    if L.None? then None
    else Some(EventTable(LoginResponseEventName, t.result != Success, 1))
  }

  /** What one `Execute` call did: its return value, the table handed to the dispatcher, and the stack afterwards. */
  datatype ExecuteOutcome = ExecuteOutcome(ok: bool, dispatched: Option<EventTable>, stack: seq<EventTable>)

  /**
   `BaseDispatchEventTask::Execute`: gives up without a dispatcher, without a
   Lua state, or when the table cannot be pushed; otherwise dispatches the
   pushed table, pops it again and returns what the dispatcher reported
   (`dispatchOk`).
   */
  function Execute(t: LoginResponseTask, stack: seq<EventTable>, dispatchOk: bool): (r: ExecuteOutcome)
    ensures r.stack == stack
    ensures r.dispatched.Some? <==> t.dispatcher.Some? && t.dispatcher.value.luaState.Some?
    ensures r.dispatched.Some? ==> r.dispatched == PushLuaEventTableTo(t, t.dispatcher.value.luaState)
    ensures r.ok <==> r.dispatched.Some? && dispatchOk
  {
    if t.dispatcher.None? then ExecuteOutcome(false, None, stack)
    else
      var L := t.dispatcher.value.luaState;
      if L.None? then ExecuteOutcome(false, None, stack)
      else
        match PushLuaEventTableTo(t, L)
        case None => ExecuteOutcome(false, None, stack)
        case Some(table) =>
          var pushed := stack + [table];
          ExecuteOutcome(dispatchOk, Some(table), pushed[..|pushed| - 1])
  }

  /**
   The end-to-end promise of a login task: built from a callback and given a
   live dispatcher, it delivers "loginResponse" with `isError` exactly when the
   callback did not report success.
   */
  lemma LoginTaskDeliversResult(info: LoginCallbackInfo, L: LuaStateId, stack: seq<EventTable>, dispatchOk: bool)
    ensures var t := AcquireEventDataFrom(SetLuaEventDispatcher(NewLoginResponseTask(), Some(Dispatcher(Some(L)))), info);
      var out := Execute(t, stack, dispatchOk);
      out.dispatched.Some?
      && out.dispatched.value.name == LoginResponseEventName
      && (out.dispatched.value.isError <==> info.resultCode != Success)
      && out.ok == dispatchOk
  {
  }

  /** `BaseDispatchCallResultEventTask`: a task that also carries an I/O-failure flag. */
  datatype CallResultTask = CallResultTask(dispatcher: Option<Dispatcher>, hadIOFailure: bool)

  /** The constructor: no I/O failure recorded. */
  function NewCallResultTask(): (t: CallResultTask)
    ensures !t.hadIOFailure && t.dispatcher.None?
  {
    CallResultTask(None, false)
  }

  /** `SetHadIOFailure`: `HadIOFailure` then reports the value last set. */
  function SetHadIOFailure(t: CallResultTask, value: bool): (r: CallResultTask)
    ensures r.hadIOFailure == value && r.dispatcher == t.dispatcher
  {
    t.(hadIOFailure := value)
  }
}

=== FILE: eos_types.dfy ===
/**
 The vocabulary the plugin shares with the Epic Online Services SDK and the
 Lua runtime. Every SDK object the plugin only passes around (platform
 handles, account ids, Lua states, thread ids) is an opaque number; a C++
 null pointer is `None`.
 */
module EosTypes {

  datatype Option<+T> = None | Some(value: T)

  /** Opaque values owned by the SDK or the Lua runtime. */
  type PlatformHandle = nat
  type AuthHandle = nat
  type AccountId = nat
  type LuaStateId = nat
  type ThreadId = nat
  type NotificationId = nat

  /**
   The subset of `EOS_EResult` the plugin distinguishes. `Other` stands for
   every code the plugin never names; its payload only tells such codes apart.
   */
  datatype EResult =
    | Success
    | UnexpectedError
    | Canceled
    | AlreadyPending
    | TooManyRequests
    | TimedOut
    | ServiceFailure
    | NotFound
    | OperationWillRetry
    | Other(code: nat)

  /**
   `EOS_EResult_IsOperationComplete`: a callback reporting `OperationWillRetry`
   will be called again; every other result is final.
   */
  predicate IsOperationComplete(r: EResult) {
    !r.OperationWillRetry?
  }

  /** `EOS_ELogLevel`. */
  datatype LogLevel = Off | Fatal | Error | Warning | Info | Verbose | VeryVerbose

  /** `EOS_ELoginStatus`. */
  datatype LoginStatus = NotLoggedIn | UsingLocalProfile | LoggedIn

  /** `EOS_ENetworkStatus`. */
  datatype NetworkStatus = Disabled | Offline | Online

  /** `EOS_UI_ENotificationLocation`. */
  datatype NotificationLocation = TopLeft | TopRight | BottomLeft | BottomRight

  /** `EOS_Auth_LoginCallbackInfo`: the result code, the user logged in and the account the SDK selected. */
  datatype LoginCallbackInfo = LoginCallbackInfo(
    resultCode: EResult,
    localUserId: Option<AccountId>,
    selectedAccountId: Option<AccountId>)
}

/**
 The Lua values the plugin inspects: the argument types it tests with
 `lua_type` and the tables it reads fields from.
 */
module Lua {

  datatype LuaValue =
    | Nil
    | Boolean(b: bool)
    | Number(n: int)
    | Str(s: string)
    | Table(fields: map<string, LuaValue>)
    | Function

  /** `lua_getfield` on a value known to be a table: a missing key reads as nil. */
  function Field(t: map<string, LuaValue>, key: string): LuaValue {
    if key in t then t[key] else Nil
  }

  /**
   The text C code sees through the `const char*` that `lua_tostring` gives
   for a Lua string: everything before the first NUL, or the whole string
   when it holds none.
   */
  function CString(s: string): (r: string)
    ensures r <= s && '\0' !in r
    ensures |r| < |s| ==> s[|r|] == '\0'
    ensures '\0' !in s ==> r == s
  {
    if |s| == 0 || s[0] == '\0' then "" else [s[0]] + CString(s[1..])
  }

  /** A string with a NUL reads, as a C string, as exactly the part before that NUL. */
  lemma {:induction false} CStringStopsAtNul(a: string, b: string)
    requires '\0' !in a
    ensures CString(a + "\0" + b) == a
  {
    var s := a + "\0" + b;
    assert s[|a|] == '\0';
    assert forall i :: 0 <= i < |a| ==> s[i] == a[i];
    assert |CString(s)| == |a|;
  }
}

=== FILE: lua_interface.dfy ===
/**
 The Lua-facing decisions of the plugin (`EosLuaInterface.cpp`): the SDK log
 callback's message format, the login callback, the API functions'
 argument checks, the `isLoggedOn` property, and the guards of
 `luaopen_plugin_eos`. A Lua call is modelled by its state, its arguments
 and the context bound as the function's upvalue; SDK calls the handlers
 make are replaced by their results, given as inputs.
 */
module LuaInterface {
  import opened EosTypes
  import opened Lua
  import opened DispatchTask
  import opened RuntimeContext
  import CommandLine

  // ---------------------------------------------------------------------------
  // SDK log callback
  // ---------------------------------------------------------------------------

  const ErrorTag: string := "ERROR: "
  const WarningTag: string := "WARNING: "
  const SdkTag: string := "[EOS SDK] "

  /**
   `onEOSLogMessageReceived`: nothing is logged at level Off; errors and fatal
   messages are tagged "ERROR:", warnings "WARNING:", and every other level
   has no severity tag. Every line then carries "[EOS SDK] " followed by the
   message, which ends the line.
   */
  function LogLine(level: LogLevel, message: string): (r: Option<string>)
    ensures r.None? <==> level == Off
    ensures r.Some? ==> (level in {Error, Fatal} <==> ErrorTag <= r.value)
    ensures r.Some? ==> (level == Warning <==> WarningTag <= r.value)
    ensures r.Some? && level !in {Error, Fatal, Warning} ==> SdkTag <= r.value
    ensures r.Some? ==> |r.value| >= |message| && r.value[|r.value| - |message|..] == message
    ensures r.Some? ==> |r.value| >= |SdkTag + message| && r.value[|r.value| - |SdkTag + message|..] == SdkTag + message
    ensures r.Some? ==> |r.value| == |SdkTag + message|
                          + (if level in {Error, Fatal} then |ErrorTag| else if level == Warning then |WarningTag| else 0)
  {
    if level == Off then None
    else
      var line := SdkTag + message;
      var full := if level == Error || level == Fatal then ErrorTag + line
                  else if level == Warning then WarningTag + line
                  else line;
      assert full[|full| - |message|..] == message;
      assert ErrorTag[0] == 'E' && WarningTag[0] == 'W' && SdkTag[0] == '[';
      assert full[0] == (if level == Error || level == Fatal then 'E' else if level == Warning then 'W' else '[');
      Some(full)
  }

  // ---------------------------------------------------------------------------
  // Login callback
  // ---------------------------------------------------------------------------

  datatype LoginCallbackOutcome = LoginCallbackOutcome(context: Context, forwarded: bool)

  /**
   `onLoginCallback`: a successful login stores the selected account in the
   context; the response is forwarded to the context's `OnLoginResponse` only
   once the operation is complete.
   */
  function OnLoginCallback(ctx: Context, info: LoginCallbackInfo): (r: LoginCallbackOutcome)
    ensures info.resultCode == Success ==> r.context.accountId == info.selectedAccountId
    ensures info.resultCode != Success ==> r.context.accountId == ctx.accountId
    ensures r.context.(accountId := ctx.accountId) == ctx
    ensures r.forwarded <==> info.resultCode != OperationWillRetry
  {
    var ctx' := if info.resultCode == Success then ctx.(accountId := info.selectedAccountId) else ctx;
    LoginCallbackOutcome(ctx', IsOperationComplete(info.resultCode))
  }

  // ---------------------------------------------------------------------------
  // Lua calls
  // ---------------------------------------------------------------------------

  /** One call of a Lua API function: the calling state (null is `None`), its arguments and the bound context. */
  datatype LuaCall = LuaCall(state: Option<LuaStateId>, args: seq<LuaValue>, upvalue: Option<Context>)

  /** Argument `i`, counted from 1 as the Lua stack does; a missing argument reads as nil. */
  function Arg(call: LuaCall, i: nat): LuaValue {
    if 1 <= i <= |call.args| then call.args[i - 1] else Nil
  }

  /** What a handler leaves for Lua: the values it returned and whether it reported a script error. */
  datatype CallResult = CallResult(returned: seq<LuaValue>, errorReported: bool)

  // ---------------------------------------------------------------------------
  // eos.setNotificationPosition(positionName)
  // ---------------------------------------------------------------------------

  /** The position names Lua may pass, exactly as spelled. */
  function PositionName(loc: NotificationLocation): string {
    match loc
    case TopLeft => "topLeft"
    case TopRight => "topRight"
    case BottomLeft => "bottomLeft"
    case BottomRight => "bottomRight"
  }

  /** The `strcmp` chain of `OnSetNotificationPosition`: only the four exact names are known. */
  function PositionFromName(name: string): (r: Option<NotificationLocation>)
    ensures r.Some? <==> name in {"topLeft", "topRight", "bottomLeft", "bottomRight"}
  {
    if name == "topLeft" then Some(TopLeft)
    else if name == "topRight" then Some(TopRight)
    else if name == "bottomLeft" then Some(BottomLeft)
    else if name == "bottomRight" then Some(BottomRight)
    else None
  }

  /** Names and positions are in one-to-one correspondence. */
  lemma PositionNameRoundTrip(loc: NotificationLocation, name: string)
    ensures PositionFromName(PositionName(loc)) == Some(loc)
    ensures PositionFromName(name).Some? ==> PositionName(PositionFromName(name).value) == name
  {
  }

  /**
   What `OnSetNotificationPosition` leaves for Lua, and the position it asked
   the SDK to use, if it got as far as asking.
   */
  datatype PositionOutcome = PositionOutcome(returned: seq<LuaValue>, errorReported: bool,
                                             requested: Option<NotificationLocation>)

  /**
   `OnSetNotificationPosition`. A non-string or unknown name reports an error
   and returns false; with no bound context nothing is returned; without a
   platform handle it returns false; otherwise it asks the SDK to show
   notifications at the named position and returns whether the SDK
   (`sdkResult`) accepted it.
   */
  function OnSetNotificationPosition(call: LuaCall, sdkResult: EResult): (r: PositionOutcome)
    ensures call.state.None? ==> r == PositionOutcome([], false, None)
    ensures call.state.Some? ==>
      (r.errorReported <==> !(Arg(call, 1).Str? && PositionFromName(CString(Arg(call, 1).s)).Some?))
    ensures r.errorReported ==> r.returned == [Boolean(false)]
    ensures r.returned in {[], [Boolean(false)], [Boolean(true)]}
    ensures r.requested.Some? <==>
      call.state.Some? && Arg(call, 1).Str? && PositionFromName(CString(Arg(call, 1).s)).Some?
      && call.upvalue.Some? && call.upvalue.value.platform.Some?
    ensures r.requested.Some? ==> r.requested == PositionFromName(CString(Arg(call, 1).s))
    ensures r.returned == [Boolean(true)] <==> r.requested.Some? && sdkResult == Success
    ensures r.returned == [] <==> call.state.None? || (!r.errorReported && call.upvalue.None?)
  {
    if call.state.None? then PositionOutcome([], false, None)
    else if !Arg(call, 1).Str? then PositionOutcome([Boolean(false)], true, None)
    else
      match PositionFromName(CString(Arg(call, 1).s))
      case None => PositionOutcome([Boolean(false)], true, None)
      case Some(position) =>
        if call.upvalue.None? then PositionOutcome([], false, None)
        else if call.upvalue.value.platform.None? then PositionOutcome([Boolean(false)], false, None)
        else PositionOutcome([Boolean(sdkResult == Success)], false, Some(position))
  }

  // ---------------------------------------------------------------------------
  // eos.addEventListener / eos.removeEventListener(eventName, listener)
  // ---------------------------------------------------------------------------

  /** What a listener call asks of the context's dispatcher. */
  datatype ListenerRequest = AddListener(eventName: string) | RemoveListener(eventName: string)

  /** The request a listener call makes, if it gets that far, and whether it reported a script error. */
  datatype ListenerOutcome = ListenerOutcome(request: Option<ListenerRequest>, errorReported: bool)

  /** The event name as the handlers read it: a string argument seen as a C string, or null. */
  function EventNameArg(call: LuaCall): Option<string> {
    if Arg(call, 1).Str? then Some(CString(Arg(call, 1).s)) else None
  }

  /**
   The checks both listener functions make: the first argument must be a
   non-empty string, the second a listener (`isListener` is what
   `CoronaLuaIsListener` answered), and a context must be bound. `add`
   chooses which request a call that passes them makes.
   */
  function ListenerCall(call: LuaCall, isListener: bool, add: bool): (r: ListenerOutcome)
    ensures r.request.Some? <==>
      call.state.Some? && EventNameArg(call).Some? && EventNameArg(call).value != "" && isListener
      && call.upvalue.Some?
    ensures r.request.Some? ==> r.request.value.eventName == EventNameArg(call).value && !r.errorReported
    ensures r.request.Some? ==> (r.request.value.AddListener? <==> add)
    ensures r.errorReported <==>
      call.state.Some? && !(EventNameArg(call).Some? && EventNameArg(call).value != "" && isListener)
  {
    if call.state.None? then ListenerOutcome(None, false)
    else match EventNameArg(call)
      case None => ListenerOutcome(None, true)
      case Some(name) =>
        if name == "" || !isListener then ListenerOutcome(None, true)
        else if call.upvalue.None? then ListenerOutcome(None, false)
        else ListenerOutcome(Some(if add then AddListener(name) else RemoveListener(name)), false)
  }

  /** `OnAddEventListener`: a missing or empty event name adds nothing; a valid call adds a listener for it. */
  function OnAddEventListener(call: LuaCall, isListener: bool): (r: ListenerOutcome)
    ensures !Arg(call, 1).Str? ==> r.request.None?
    ensures Arg(call, 1).Str? && CString(Arg(call, 1).s) == "" ==> r.request.None?
    ensures r.request.Some? <==>
      call.state.Some? && Arg(call, 1).Str? && CString(Arg(call, 1).s) != "" && isListener && call.upvalue.Some?
    ensures r.request.Some? ==> r.request == Some(AddListener(CString(Arg(call, 1).s)))
  {
    ListenerCall(call, isListener, true)
  }

  /** `OnRemoveEventListener`: a missing or empty event name removes nothing; a valid call removes the listener. */
  function OnRemoveEventListener(call: LuaCall, isListener: bool): (r: ListenerOutcome)
    ensures !Arg(call, 1).Str? ==> r.request.None?
    ensures Arg(call, 1).Str? && CString(Arg(call, 1).s) == "" ==> r.request.None?
    ensures r.request.Some? <==>
      call.state.Some? && Arg(call, 1).Str? && CString(Arg(call, 1).s) != "" && isListener && call.upvalue.Some?
    ensures r.request.Some? ==> r.request == Some(RemoveListener(CString(Arg(call, 1).s)))
  {
    ListenerCall(call, isListener, false)
  }

  /**
   Adding and removing accept exactly the same calls, report the same errors
   and name the same event: only the request differs.
   */
  lemma AddRemoveSameChecks(call: LuaCall, isListener: bool)
    ensures var a := OnAddEventListener(call, isListener); var d := OnRemoveEventListener(call, isListener);
      a.errorReported == d.errorReported && (a.request.Some? <==> d.request.Some?)
      && (a.request.Some? ==> a.request.value.eventName == d.request.value.eventName)
  {
  }

  // ---------------------------------------------------------------------------
  // Property fields of the plugin table
  // ---------------------------------------------------------------------------

  /** The `isLoggedOn` property: an account has been selected and a platform exists. */
  predicate IsLoggedOn(ctx: Context) {
    ctx.accountId.Some? && ctx.platform.Some?
  }

  /** The one property field the plugin table answers. */
  const IsLoggedOnKey: string := "isLoggedOn"

  /** The key a Lua string names, as the handler's `strcmp` sees it. */
  predicate NamesIsLoggedOn(key: string) {
    CString(key) == IsLoggedOnKey
  }

  /**
   `OnAccessingField` (the `__index` handler; the key is argument 2).
   "isLoggedOn" yields one boolean; any other string key reports an error and
   yields nothing; a non-string key yields nothing silently.
   */
  function OnAccessingField(call: LuaCall): (r: CallResult)
    ensures r.returned != [] <==>
      call.state.Some? && Arg(call, 2).Str? && NamesIsLoggedOn(Arg(call, 2).s) && call.upvalue.Some?
    ensures r.returned != [] ==> r.returned == [Boolean(IsLoggedOn(call.upvalue.value))]
    ensures r.errorReported <==>
      call.state.Some? && Arg(call, 2).Str? && !NamesIsLoggedOn(Arg(call, 2).s)
    ensures r.errorReported ==> r.returned == []
  {
    if call.state.None? || !Arg(call, 2).Str? then CallResult([], false)
    else if !NamesIsLoggedOn(Arg(call, 2).s) then CallResult([], true)
    else if call.upvalue.None? then CallResult([], false)
    else CallResult([Boolean(IsLoggedOn(call.upvalue.value))], false)
  }

  /**
   Reading `eos.isLoggedOn` from Lua gives true exactly when an account has
   been selected and a platform exists.
   */
  lemma IsLoggedOnRead(L: LuaStateId, table: LuaValue, ctx: Context)
    ensures OnAccessingField(LuaCall(Some(L), [table, Str(IsLoggedOnKey)], Some(ctx)))
         == CallResult([Boolean(ctx.accountId.Some? && ctx.platform.Some?)], false)
  {
    assert '\0' !in IsLoggedOnKey by {
      assert forall i :: 0 <= i < |IsLoggedOnKey| ==> IsLoggedOnKey[i] != '\0';
    }
  }

  /** `OnAssigningField` (the `__newindex` handler): writes are ignored and nothing is returned. */
  function OnAssigningField(call: LuaCall): (r: CallResult)
    ensures r.returned == [] && !r.errorReported
  {
    CallResult([], false)
  }

  /**
   `OnGetAuthIdToken`: the JSON web token when the SDK copies one
   (`copied`), otherwise nothing.
   */
  function OnGetAuthIdToken(call: LuaCall, copied: Option<string>): (r: CallResult)
    ensures r.returned != [] <==> call.state.Some? && call.upvalue.Some? && copied.Some?
    ensures r.returned != [] ==> r.returned == [Str(copied.value)]
    ensures !r.errorReported
  {
    if call.state.None? || call.upvalue.None? then CallResult([], false)
    else if copied.None? then CallResult([], false)
    else CallResult([Str(copied.value)], false)
  }

  // ---------------------------------------------------------------------------
  // luaopen_plugin_eos
  // ---------------------------------------------------------------------------

  /** The launch-argument keys and the auth type the Epic launcher uses for an exchange code. */
  const AuthLoginKey: string := "AUTH_LOGIN"
  const AuthPasswordKey: string := "AUTH_PASSWORD"
  const AuthTypeKey: string := "AUTH_TYPE"
  const ExchangeCodeType: string := "exchangecode"

  /**
   The exchange-code auto-login guard: the launcher's password is used only
   when a platform exists, both AUTH_TYPE and AUTH_PASSWORD were passed, the
   type is "exchangecode" and the password is not empty.
   */
  function ExchangeCodeToken(hasPlatform: bool, launchArgs: map<string, string>): (r: Option<string>)
    ensures r.Some? <==>
      hasPlatform && AuthTypeKey in launchArgs && AuthPasswordKey in launchArgs
      && launchArgs[AuthTypeKey] == ExchangeCodeType && launchArgs[AuthPasswordKey] != ""
    ensures r.Some? ==> r.value == launchArgs[AuthPasswordKey]
  {
    if hasPlatform && AuthTypeKey in launchArgs && AuthPasswordKey in launchArgs then
      if launchArgs[AuthTypeKey] == ExchangeCodeType && launchArgs[AuthPasswordKey] != "" then
        Some(launchArgs[AuthPasswordKey])
      else None
    else None
  }

  /** The launcher keys can be written as `-key=value`: each is non-empty, has no `=`, and they differ. */
  lemma LaunchKeysWellFormed()
    ensures AuthLoginKey != [] && '=' !in AuthLoginKey
    ensures AuthPasswordKey != [] && '=' !in AuthPasswordKey
    ensures AuthTypeKey != [] && '=' !in AuthTypeKey
    ensures AuthTypeKey != AuthPasswordKey
  {
  }

  /** The arguments the Epic launcher passes reach the guard through the launch-argument parser. */
  lemma LauncherArgsStartLogin(password: string)
    requires password != ""
    ensures var argv := [LaunchArg(AuthLoginKey, "unused"), LaunchArg(AuthPasswordKey, password),
                         LaunchArg(AuthTypeKey, ExchangeCodeType)];
      ExchangeCodeToken(true, CommandLine.ParseArgs(argv)) == Some(password)
  {
    LaunchKeysWellFormed();
    var m := ThreeLaunchArgs(AuthLoginKey, "unused", AuthPasswordKey, password, AuthTypeKey, ExchangeCodeType);
    assert m[AuthPasswordKey] == password;
  }

  /** Three launcher arguments, the last two with different keys, parse to their three entries. */
  lemma ThreeLaunchArgs(k1: string, v1: string, k2: string, v2: string, k3: string, v3: string)
    returns (m: map<string, string>)
    requires k1 != [] && '=' !in k1 && k2 != [] && '=' !in k2 && k3 != [] && '=' !in k3
    ensures m == CommandLine.ParseArgs([LaunchArg(k1, v1), LaunchArg(k2, v2), LaunchArg(k3, v3)])
    ensures m == map[k1 := v1][k2 := v2][k3 := v3]
  {
    var a1, a2, a3 := LaunchArg(k1, v1), LaunchArg(k2, v2), LaunchArg(k3, v3);
    assert CommandLine.ParseArgs([]) == map[];
    var m1 := LaunchArgsStep([], k1, v1);
    assert [] + [a1] == [a1];
    var m2 := LaunchArgsStep([a1], k2, v2);
    assert [a1] + [a2] == [a1, a2];
    m := LaunchArgsStep([a1, a2], k3, v3);
    assert [a1, a2] + [a3] == [a1, a2, a3];
  }

  /** One launcher argument appended to argv sets its key in the parsed map. */
  lemma LaunchArgsStep(argv: seq<string>, key: string, value: string) returns (m: map<string, string>)
    requires key != [] && '=' !in key
    ensures m == CommandLine.ParseArgs(argv + [LaunchArg(key, value)])
    ensures m == CommandLine.ParseArgs(argv)[key := value]
  {
    CommandLine.ParseDashedArg(key, value);
    CommandLine.ParseArgsSnoc(argv, LaunchArg(key, value));
    m := CommandLine.ParseArgs(argv + [LaunchArg(key, value)]);
  }

  /** A launcher argument as the Epic launcher writes it: `-key=value`. */
  function LaunchArg(key: string, value: string): string {
    "-" + key + "=" + value
  }

  /**
   The process-wide state `luaopen_plugin_eos` consults: the live contexts and
   the thread the first live instance was loaded on.
   */
  datatype PluginGlobals = PluginGlobals(registry: Registry, mainThread: ThreadId)

  /**
   Results of the SDK calls made while loading: `EOS_Initialize`,
   `EOS_Platform_Create` and `EOS_Platform_GetAuthInterface`.
   */
  datatype SdkResponses = SdkResponses(initResult: EResult, createdPlatform: Option<PlatformHandle>,
                                       authInterface: AuthHandle)

  /**
   A completed load: the new globals and context, how many values it returns
   to Lua, whether it initialised the SDK, whether it reported a script error
   for a platform the SDK did not create, and the exchange code it logged in
   with, if any.
   */
  datatype OpenOutcome =
    | NullState
    | OtherThread
    | Opened(globals: PluginGlobals, context: Context, returned: nat, sdkInitAttempted: bool,
             platformErrorReported: bool, exchangeLogin: Option<string>)

  /** The multi-instance guard: while instances are live, only the thread that loaded the first one may load another. */
  predicate AdmitsThread(g: PluginGlobals, current: ThreadId)
    requires ValidRegistry(g.registry)
  {
    InstanceCount(g.registry) == 0 || current == g.mainThread
  }

  /**
   `luaopen_plugin_eos`. A load from another thread while instances are live
   is refused. Otherwise a context is constructed and registered; the SDK is
   initialised and the platform created only when this is the one live
   instance; a failed initialisation returns no table (the context stays
   registered), and a null platform reports an error but carries on; then the
   exchange-code guard decides whether to log in, which first stores the
   SDK's auth interface in the context.
   */
  function LuaOpen(g: PluginGlobals, current: ThreadId, L: Option<LuaStateId>, coronaThread: Option<LuaStateId>,
                   id: ContextId, init: Uninitialised, sdk: SdkResponses, launchArgs: map<string, string>): (r: OpenOutcome)
    requires ValidRegistry(g.registry) && id !in Ids(g.registry)
    ensures r.NullState? <==> L.None?
    ensures r.OtherThread? <==> L.Some? && !AdmitsThread(g, current)
    ensures r.Opened? ==> ValidRegistry(r.globals.registry)
    ensures r.Opened? ==> InstanceCount(r.globals.registry) == InstanceCount(g.registry) + 1
    ensures r.Opened? ==> r.globals.mainThread == current
    ensures r.Opened? ==> (r.sdkInitAttempted <==> InstanceCount(g.registry) == 0)
    ensures r.Opened? && r.sdkInitAttempted && sdk.initResult == Success ==> r.context.platform == sdk.createdPlatform
    ensures r.Opened? && !(r.sdkInitAttempted && sdk.initResult == Success) ==> r.context.platform == init.platform
    ensures r.Opened? ==> (r.returned == 0 <==> r.sdkInitAttempted && sdk.initResult != Success)
    ensures r.Opened? && r.returned == 0 ==> r.exchangeLogin.None?
    ensures r.Opened? && r.returned != 0 ==> r.exchangeLogin == ExchangeCodeToken(r.context.platform.Some?, launchArgs)
    ensures r.Opened? ==>
      (r.platformErrorReported <==> r.sdkInitAttempted && sdk.initResult == Success && sdk.createdPlatform.None?)
    ensures r.Opened? && r.exchangeLogin.Some? ==> r.context.authHandle == Some(sdk.authInterface)
    ensures r.Opened? && r.exchangeLogin.None? ==> r.context.authHandle == init.authHandle
  {
    if L.None? then NullState
    else if !AdmitsThread(g, current) then OtherThread
    else
      var first := InstanceCount(g.registry) == 0;
      var mainThread := if first then current else g.mainThread;
      var c := Construct(g.registry, id, L, coronaThread, init);
      var globals := PluginGlobals(c.registry, mainThread);
      assert InstanceCount(c.registry) == InstanceCount(g.registry) + 1 by {
        assert Ids(c.registry) == Ids(g.registry) + {id};
      }
      if InstanceCount(c.registry) == 1 then
        if sdk.initResult != Success then
          Opened(globals, c.context, 0, true, false, None)
        else
          var ctx := c.context.(platform := sdk.createdPlatform);
          ExchangeCodeLogin(globals, ctx, true, sdk.createdPlatform.None?, sdk.authInterface, launchArgs)
      else
        ExchangeCodeLogin(globals, c.context, false, false, sdk.authInterface, launchArgs)
  }

  /** The end of a load that returns the plugin table: the exchange-code login, if the guard admits one. */
  function ExchangeCodeLogin(globals: PluginGlobals, ctx: Context, sdkInitAttempted: bool, platformErrorReported: bool,
                             authInterface: AuthHandle, launchArgs: map<string, string>): (r: OpenOutcome)
    ensures r.Opened? && r.globals == globals && r.returned == 1
    ensures r.sdkInitAttempted == sdkInitAttempted && r.platformErrorReported == platformErrorReported
    ensures r.exchangeLogin == ExchangeCodeToken(ctx.platform.Some?, launchArgs)
    ensures r.exchangeLogin.Some? ==> r.context == ctx.(authHandle := Some(authInterface))
    ensures r.exchangeLogin.None? ==> r.context == ctx
  {
    match ExchangeCodeToken(ctx.platform.Some?, launchArgs)
    case None => Opened(globals, ctx, 1, sdkInitAttempted, platformErrorReported, None)
    case Some(token) =>
      Opened(globals, ctx.(authHandle := Some(authInterface)), 1, sdkInitAttempted, platformErrorReported, Some(token))
  }

  /** Loading twice on one thread initialises the SDK once; a later load from another thread is refused. */
  lemma SecondLoadSkipsInit(current: ThreadId, other: ThreadId, L: LuaStateId, init: Uninitialised,
                            sdk: SdkResponses, args: map<string, string>)
    requires other != current
    ensures var first := LuaOpen(PluginGlobals([], 0), current, Some(L), None, 1, init, sdk, args);
      first.Opened? && first.sdkInitAttempted
      && ValidRegistry(first.globals.registry) && 2 !in Ids(first.globals.registry)
      && !LuaOpen(first.globals, current, Some(L), None, 2, init, sdk, args).sdkInitAttempted
      && LuaOpen(first.globals, other, Some(L), None, 2, init, sdk, args).OtherThread?
  {
    var first := LuaOpen(PluginGlobals([], 0), current, Some(L), None, 1, init, sdk, args);
    assert Ids(first.globals.registry) == {1};
  }
}

=== FILE: plugin_config.dfy ===
/**
 The plugin's credentials record (`PluginConfigLuaSettings`): seven string
 fields with setters that treat a null argument as "clear", a partial
 `Reset`, and `LoadFrom`, which reads the `application.eos` table of the
 app's `config.lua`.
 */
module PluginConfig {
  import opened EosTypes
  import opened Lua

  datatype Config = Config(
    encryptionKey: string,
    appId: string,
    productId: string,
    sandboxId: string,
    deploymentId: string,
    clientId: string,
    clientSecret: string)

  datatype ConfigField = EncryptionKey | AppId | ProductId | SandboxId | DeploymentId | ClientId | ClientSecret

  /** The `GetString*` accessors. */
  function Get(c: Config, f: ConfigField): string {
    match f
    case EncryptionKey => c.encryptionKey
    case AppId => c.appId
    case ProductId => c.productId
    case SandboxId => c.sandboxId
    case DeploymentId => c.deploymentId
    case ClientId => c.clientId
    case ClientSecret => c.clientSecret
  }

  /** Replaces one field, keeping the other six. */
  function With(c: Config, f: ConfigField, v: string): (r: Config)
    ensures Get(r, f) == v
    ensures forall g :: g != f ==> Get(r, g) == Get(c, g)
  {
    match f
    case EncryptionKey => c.(encryptionKey := v)
    case AppId => c.(appId := v)
    case ProductId => c.(productId := v)
    case SandboxId => c.(sandboxId := v)
    case DeploymentId => c.(deploymentId := v)
    case ClientId => c.(clientId := v)
    case ClientSecret => c.(clientSecret := v)
  }

  /**
   The `SetString*` setters as written: a string is stored in its field, a
   null argument clears the field, except that `SetStringDeploymentId(nullptr)`
   clears the app id and leaves the deployment id alone.
   */
  function Set(c: Config, f: ConfigField, v: Option<string>): (r: Config)
    ensures v.Some? ==> Get(r, f) == v.value && forall g :: g != f ==> Get(r, g) == Get(c, g)
    ensures v.None? && f != DeploymentId ==>
      Get(r, f) == "" && forall g :: g != f ==> Get(r, g) == Get(c, g)
    ensures v.None? && f == DeploymentId ==>
      r.appId == "" && forall g :: g != AppId ==> Get(r, g) == Get(c, g)
  {
    match v
    case Some(s) => With(c, f, s)
    case None => if f == DeploymentId then With(c, AppId, "") else With(c, f, "")
  }

  /** The setters as evidently intended: a null argument clears the field it names, for all seven. */
  function SetIntended(c: Config, f: ConfigField, v: Option<string>): (r: Config)
    ensures Get(r, f) == (if v.Some? then v.value else "")
    ensures forall g :: g != f ==> Get(r, g) == Get(c, g)
  {
    With(c, f, if v.Some? then v.value else "")
  }

  /** The two agree everywhere except on clearing the deployment id. */
  lemma SetAgreesWithIntended(c: Config, f: ConfigField, v: Option<string>)
    requires v.Some? || f != DeploymentId
    ensures Set(c, f, v) == SetIntended(c, f, v)
  {
  }

  /** A record with both ids set shows the slip: clearing the deployment id wipes the app id instead. */
  lemma DeploymentClearHitsAppId()
    ensures var c := Config("", "app", "", "", "dep", "", "");
      Set(c, DeploymentId, None).deploymentId == "dep"
      && Set(c, DeploymentId, None).appId == ""
      && SetIntended(c, DeploymentId, None).deploymentId == ""
      && SetIntended(c, DeploymentId, None).appId == "app"
  {
  }

  /** `Reset`: clears app id, client id and client secret only. */
  function Reset(c: Config): (r: Config)
    ensures r.appId == "" && r.clientId == "" && r.clientSecret == ""
    ensures forall g :: g !in {AppId, ClientId, ClientSecret} ==> Get(r, g) == Get(c, g)
  {
    c.(appId := "", clientId := "", clientSecret := "")
  }

  /** The key `LoadFrom` reads each field from in the `application.eos` table. */
  function ConfigKey(f: ConfigField): string {
    match f
    case EncryptionKey => "encryptionKey"
    case AppId => "appId"
    case ProductId => "productId"
    case SandboxId => "sandboxId"
    case DeploymentId => "deploymentId"
    case ClientId => "clientId"
    case ClientSecret => "clientSecret"
  }

  /**
   The part of a Lua state `LoadFrom` reads and restores.
   `configLoaded` is whether `package.loaded.config` is non-nil;
   `requireIsFunction` whether the global `require` is a function;
   `configScriptApplication` is the value running `config.lua` assigns to the
   global `application`.
   */
  datatype LuaState = LuaState(
    application: LuaValue,
    configLoaded: bool,
    requireIsFunction: bool,
    configScriptApplication: LuaValue)

  /**
   `require("config")`: runs `config.lua` unless it is already loaded, which
   sets the `application` global and marks the module loaded.
   */
  function RequireConfig(L: LuaState): LuaState {
    if L.requireIsFunction && !L.configLoaded then
      L.(application := L.configScriptApplication, configLoaded := true)
    else L
  }

  /** The `application.eos` table, if `application` is a table holding a table under `eos`. */
  function EosTable(application: LuaValue): Option<map<string, LuaValue>> {
    if application.Table? && Field(application.fields, "eos").Table? then
      Some(Field(application.fields, "eos").fields)
    else None
  }

  /**
   One field of the record after loading: taken from the table only when the
   value there is a string, and then as the C string `lua_tostring` yields.
   */
  function Loaded(eos: map<string, LuaValue>, c: Config, f: ConfigField): string {
    var v := Field(eos, ConfigKey(f));
    if v.Str? then CString(v.s) else Get(c, f)
  }

  /** The seven fields read from the `application.eos` table, one after another. */
  function LoadFields(eos: map<string, LuaValue>, c: Config): Config {
    Config(
      Loaded(eos, c, EncryptionKey), Loaded(eos, c, AppId), Loaded(eos, c, ProductId),
      Loaded(eos, c, SandboxId), Loaded(eos, c, DeploymentId), Loaded(eos, c, ClientId),
      Loaded(eos, c, ClientSecret))
  }

  /** Every field of the loaded record is the one `Loaded` picks for it. */
  lemma LoadFieldsGet(eos: map<string, LuaValue>, c: Config)
    ensures forall f :: Get(LoadFields(eos, c), f) == Loaded(eos, c, f)
  {
    var r := LoadFields(eos, c);
    forall f ensures Get(r, f) == Loaded(eos, c, f) {
      match f {
        case EncryptionKey => assert Get(r, f) == r.encryptionKey;
        case AppId => assert Get(r, f) == r.appId;
        case ProductId => assert Get(r, f) == r.productId;
        case SandboxId => assert Get(r, f) == r.sandboxId;
        case DeploymentId => assert Get(r, f) == r.deploymentId;
        case ClientId => assert Get(r, f) == r.clientId;
        case ClientSecret => assert Get(r, f) == r.clientSecret;
      }
    }
  }

  datatype LoadResult = LoadResult(wasLoaded: bool, config: Config, state: Option<LuaState>)

  /**
   `LoadFrom`: a null state loads nothing. Otherwise `config.lua` is required,
   each field whose value under `application.eos` is a string is copied up to
   its first NUL (the copy goes through a `const char*`), the
   `application` global is restored, and `config` is unloaded again only if it
   was not loaded before the call. The result is whether `application.eos` was
   a table, even when none of its fields were usable.
   */
  function LoadFrom(c: Config, L: Option<LuaState>): (r: LoadResult)
    ensures L.None? ==> !r.wasLoaded && r.config == c && r.state == L
    ensures L.Some? ==> r.state == L
    ensures r.wasLoaded <==> L.Some? && EosTable(RequireConfig(L.value).application).Some?
    ensures r.wasLoaded ==> forall f ::
        Get(r.config, f) == Loaded(EosTable(RequireConfig(L.value).application).value, c, f)
    ensures !r.wasLoaded ==> r.config == c
  {
    match L
    case None => LoadResult(false, c, L)
    case Some(state) =>
      var required := RequireConfig(state);
      var config := match EosTable(required.application)
        case None => c
        case Some(eos) => (LoadFieldsGet(eos, c); LoadFields(eos, c));
      var restored := required.(application := state.application, configLoaded := state.configLoaded);
      LoadResult(EosTable(required.application).Some?, config, Some(restored))
  }

  /** A field whose configured value is not a string keeps the value it had before loading. */
  lemma NonStringFieldKept(c: Config, L: LuaState, f: ConfigField)
    requires EosTable(RequireConfig(L).application).Some?
    requires !Field(EosTable(RequireConfig(L).application).value, ConfigKey(f)).Str?
    ensures Get(LoadFrom(c, Some(L)).config, f) == Get(c, f)
  {
  }

  /** A field whose configured value is a string holds that string's C-string text after loading. */
  lemma StringFieldLoaded(c: Config, L: LuaState, f: ConfigField)
    requires EosTable(RequireConfig(L).application).Some?
    requires Field(EosTable(RequireConfig(L).application).value, ConfigKey(f)).Str?
    ensures Get(LoadFrom(c, Some(L)).config, f) == CString(Field(EosTable(RequireConfig(L).application).value, ConfigKey(f)).s)
  {
  }

  /**
   A configured string with an embedded NUL is stored only up to that NUL:
   `"ab\0cd"` under `appId` gives the app id `"ab"`.
   */
  lemma LoadStopsAtNul(c: Config, L: LuaState, f: ConfigField, before: string, after: string)
    requires '\0' !in before
    requires EosTable(RequireConfig(L).application).Some?
    requires Field(EosTable(RequireConfig(L).application).value, ConfigKey(f)) == Str(before + "\0" + after)
    ensures Get(LoadFrom(c, Some(L)).config, f) == before
  {
    CStringStopsAtNul(before, after);
  }

  /** Loading twice from the same state gives the same record as loading once: the state is left as found. */
  lemma LoadFromTwice(c: Config, L: Option<LuaState>)
    ensures var r := LoadFrom(c, L); LoadFrom(r.config, r.state) == r
  {
  }
}

=== FILE: runtime_context.dfy ===
/**
 The runtime context (`RuntimeContext.cpp`): one per loaded plugin instance.
 All live contexts sit in a global registry that can be counted and searched
 by Lua state; each context owns a FIFO of dispatch tasks that is drained on
 every frame, after the platform has been ticked.
 */
module RuntimeContext {
  import opened EosTypes
  import opened DispatchTask

  /** The address of a context object. */
  type ContextId = nat

  /** A registered context as the registry sees it: its address and the main Lua state of its dispatcher. */
  datatype Entry = Entry(id: ContextId, mainState: LuaStateId)

  /**
   `sRuntimeContextCollection`. It is an unordered set; the sequence order
   stands for its (unspecified) iteration order, and addresses are distinct.
   */
  type Registry = seq<Entry>

  predicate ValidRegistry(reg: Registry) {
    forall i, j :: 0 <= i < j < |reg| ==> reg[i].id != reg[j].id
  }

  function Ids(reg: Registry): set<ContextId> {
    set e | e in reg :: e.id
  }

  /** A context's own state; the task queue holds shared pointers, so an entry may be null. */
  datatype Context = Context(
    dispatcher: Dispatcher,
    platform: Option<PlatformHandle>,
    accountId: Option<AccountId>,
    authHandle: Option<AuthHandle>,
    queue: seq<Option<LoginResponseTask>>)

  /**
   The constructor never initialises the platform handle, the account id or
   the auth handle; whatever they hold at construction is given here.
   */
  datatype Uninitialised = Uninitialised(
    platform: Option<PlatformHandle>,
    accountId: Option<AccountId>,
    authHandle: Option<AuthHandle>)

  /**
   The Lua state a context works with: the main state when `coronaThread`
   (what `CoronaLuaGetCoronaThread` returned) names one, else the given state.
   */
  function MainState(L: LuaStateId, coronaThread: Option<LuaStateId>): (s: LuaStateId)
    ensures coronaThread.Some? ==> s == coronaThread.value
    ensures coronaThread.None? ==> s == L
  {
    if coronaThread.Some? && coronaThread.value != L then coronaThread.value else L
  }

  datatype Construction = Thrown | Constructed(registry: Registry, context: Context)

  /**
   The constructor: a null Lua state throws before anything is registered;
   otherwise the context gets a dispatcher on the main Lua state, an empty
   queue, and joins the registry. `id` is the address `new` handed out, so it
   is not already registered.
   */
  function Construct(reg: Registry, id: ContextId, L: Option<LuaStateId>, coronaThread: Option<LuaStateId>,
                     init: Uninitialised): (r: Construction)
    requires ValidRegistry(reg) && id !in Ids(reg)
    ensures r.Thrown? <==> L.None?
    ensures r.Constructed? ==> ValidRegistry(r.registry) && Ids(r.registry) == Ids(reg) + {id}
    ensures r.Constructed? ==> Entry(id, MainState(L.value, coronaThread)) in r.registry
    ensures r.Constructed? ==> forall e :: e in reg ==> e in r.registry
    ensures r.Constructed? ==> r.context.dispatcher.luaState == Some(MainState(L.value, coronaThread))
    ensures r.Constructed? ==> r.context.queue == []
    ensures r.Constructed? ==> r.context.platform == init.platform && r.context.accountId == init.accountId
                               && r.context.authHandle == init.authHandle
  {
    match L
    case None => Thrown
    case Some(state) =>
      var main := MainState(state, coronaThread);
      var reg' := reg + [Entry(id, main)];
      assert Ids(reg') == Ids(reg) + {id} by {
        assert forall e :: e in reg' <==> e in reg || e == Entry(id, main);
      }
      Constructed(reg', Context(Dispatcher(Some(main)), init.platform, init.accountId, init.authHandle, []))
  }

  /** `erase` on the registry: drops the entry with the given address, keeping the rest in order. */
  function RemoveId(reg: Registry, id: ContextId): (r: Registry)
    requires ValidRegistry(reg)
    ensures ValidRegistry(r)
    ensures forall e :: e in r <==> e in reg && e.id != id
    ensures Ids(r) == Ids(reg) - {id}
  {
    if |reg| == 0 then []
    else
      var rest := RemoveId(reg[1..], id);
      assert forall e :: e in reg <==> e == reg[0] || e in reg[1..];
      if reg[0].id == id then
        assert forall e :: e in reg[1..] ==> e.id != id;
        reg[1..]
      else
        assert forall e :: e in rest ==> e.id != reg[0].id;
        [reg[0]] + rest
  }

  /** `GetInstanceCount`. */
  function InstanceCount(reg: Registry): (n: int)
    requires ValidRegistry(reg)
    ensures n == |Ids(reg)|
  {
    DistinctCount(reg);
    |reg|
  }

  /** With distinct addresses, the registry holds as many contexts as it has entries. */
  lemma {:induction false} DistinctCount(reg: Registry)
    requires ValidRegistry(reg)
    ensures |Ids(reg)| == |reg|
  {
    if |reg| > 0 {
      var rest := reg[1..];
      DistinctCount(rest);
      assert Ids(reg) == {reg[0].id} + Ids(rest) by {
        assert forall e :: e in reg <==> e == reg[0] || e in rest;
      }
      assert reg[0].id !in Ids(rest);
    }
  }

  /** The destructor: the context leaves the registry and the count drops by one. */
  function Destroy(reg: Registry, id: ContextId): (r: Registry)
    requires ValidRegistry(reg) && id in Ids(reg)
    ensures ValidRegistry(r) && Ids(r) == Ids(reg) - {id}
    ensures InstanceCount(r) == InstanceCount(reg) - 1
    ensures forall e :: e in reg && e.id != id ==> e in r
  {
    RemoveId(reg, id)
  }

  /** Constructing then destroying a context leaves the same set of live contexts as before. */
  lemma ConstructDestroy(reg: Registry, id: ContextId, L: LuaStateId, coronaThread: Option<LuaStateId>, init: Uninitialised)
    requires ValidRegistry(reg) && id !in Ids(reg)
    ensures var c := Construct(reg, id, Some(L), coronaThread, init);
      c.Constructed? && InstanceCount(c.registry) == InstanceCount(reg) + 1
      && Ids(Destroy(c.registry, id)) == Ids(reg)
  {
  }

  /** The first entry, in iteration order, whose main state is `s`. */
  function FirstWithState(reg: Registry, s: LuaStateId): (r: Option<ContextId>)
    ensures r.Some? ==> Entry(r.value, s) in reg
    ensures r.None? ==> forall e :: e in reg ==> e.mainState != s
  {
    if |reg| == 0 then None
    else if reg[0].mainState == s then Some(reg[0].id)
    else
      assert forall e :: e in reg ==> e == reg[0] || e in reg[1..];
      FirstWithState(reg[1..], s)
  }

  /**
   `GetInstanceBy`: nothing for a null state; otherwise a registered context
   whose main state is the given state's main state, or nothing if none is.
   */
  function GetInstanceBy(reg: Registry, L: Option<LuaStateId>, coronaThread: Option<LuaStateId>): (r: Option<ContextId>)
    ensures L.None? ==> r.None?
    ensures r.Some? ==> Entry(r.value, MainState(L.value, coronaThread)) in reg
    ensures L.Some? && r.None? ==> forall e :: e in reg ==> e.mainState != MainState(L.value, coronaThread)
  {
    match L
    case None => None
    case Some(state) => FirstWithState(reg, MainState(state, coronaThread))
  }

  /** A context is found by the state it was constructed with. */
  lemma ConstructedIsFound(reg: Registry, id: ContextId, L: LuaStateId, coronaThread: Option<LuaStateId>, init: Uninitialised)
    requires ValidRegistry(reg) && id !in Ids(reg)
    ensures var c := Construct(reg, id, Some(L), coronaThread, init);
      GetInstanceBy(c.registry, Some(L), coronaThread).Some?
  {
  }

  /** The non-null tasks of a queue, front first: the ones a frame executes, in order. */
  function NonNull(q: seq<Option<LoginResponseTask>>): seq<LoginResponseTask> {
    if |q| == 0 then []
    else (if q[0].Some? then [q[0].value] else []) + NonNull(q[1..])
  }

  /** Filtering a queue keeps exactly its non-null tasks. */
  lemma {:induction false} NonNullContents(q: seq<Option<LoginResponseTask>>, t: LoginResponseTask)
    ensures t in NonNull(q) <==> Some(t) in q
  {
    if |q| > 0 {
      NonNullContents(q[1..], t);
      assert Some(t) in q <==> q[0] == Some(t) || Some(t) in q[1..];
    }
  }

  /** Filtering distributes over concatenation, so order between parts is kept. */
  lemma {:induction false} NonNullAppend(a: seq<Option<LoginResponseTask>>, b: seq<Option<LoginResponseTask>>)
    ensures NonNull(a + b) == NonNull(a) + NonNull(b)
  {
    if |a| > 0 {
      assert (a + b)[1..] == a[1..] + b;
      NonNullAppend(a[1..], b);
    } else {
      assert a + b == b;
    }
  }

  datatype FrameOutcome = FrameOutcome(ret: int, ticked: bool, executed: seq<LoginResponseTask>, context: Context)

  /**
   `OnCoronaEnterFrame`: a null state returns 0 at once. Otherwise the
   platform is ticked when there is a handle, then the queue is popped from
   the front until empty, executing every non-null task on the way.
   */
  method OnCoronaEnterFrame(ctx: Context, L: Option<LuaStateId>) returns (out: FrameOutcome)
    ensures out.ret == 0
    ensures L.None? ==> !out.ticked && out.executed == [] && out.context == ctx
    ensures L.Some? ==> (out.ticked <==> ctx.platform.Some?)
    ensures L.Some? ==> out.context == ctx.(queue := []) && out.executed == NonNull(ctx.queue)
  {
    if L.None? {
      return FrameOutcome(0, false, [], ctx);
    }
    var ticked := ctx.platform.Some?;
    var queue := ctx.queue;
    var executed := [];
    while |queue| > 0
      invariant executed + NonNull(queue) == NonNull(ctx.queue)
    {
      var front := queue[0];
      queue := queue[1..];
      if front.Some? {
        executed := executed + [front.value];
      }
    }
    out := FrameOutcome(0, ticked, executed, ctx.(queue := queue));
  }

  /**
   `OnHandleGlobalEosEvent` for the login callback: a null event changes
   nothing; otherwise one task, bound to this context's dispatcher and holding
   the event's result, joins the back of the queue.
   */
  function OnHandleGlobalEosEvent(ctx: Context, event: Option<LoginCallbackInfo>): (r: Context)
    ensures event.None? ==> r == ctx
    ensures event.Some? ==> |r.queue| == |ctx.queue| + 1 && r.queue[..|ctx.queue|] == ctx.queue
    ensures event.Some? ==> r.queue[|ctx.queue|] == Some(LoginResponseTask(Some(ctx.dispatcher), event.value.resultCode))
    ensures r.(queue := ctx.queue) == ctx
  {
    match event
    case None => ctx
    case Some(info) =>
      var task := AcquireEventDataFrom(SetLuaEventDispatcher(NewLoginResponseTask(), Some(ctx.dispatcher)), info);
      ctx.(queue := ctx.queue + [Some(task)])
  }

  /** A task enqueued now runs on the next frame after every task already waiting. */
  lemma EnqueuedRunsLast(ctx: Context, info: LoginCallbackInfo)
    ensures NonNull(OnHandleGlobalEosEvent(ctx, Some(info)).queue)
         == NonNull(ctx.queue) + [LoginResponseTask(Some(ctx.dispatcher), info.resultCode)]
  {
    var task := LoginResponseTask(Some(ctx.dispatcher), info.resultCode);
    NonNullAppend(ctx.queue, [Some(task)]);
    assert NonNull([Some(task)]) == [task];
  }
}
